=== FILE: README.md ===
# QuantiumTester fixture generators, in Dafny

This project models the fixture-generator layer of QuantiumTester, a seeded
test-fixture generator, together with the small stage and configuration
classes around it:

- the string generators: the cached `StringDefinition` with sentinel
  injection and the `{from, to}` length range, the earlier uncached
  `StringDefinition.randomString`, and the private `randomString` of the early
  `QuantiumTesting` class;
- the `QRange` and `BooleanDefinition` generators, with their caches, whose
  reuse depends on JavaScript truthiness;
- fixture-name resolution (`GeneratorUtils.getGeneratorAsValue` and
  `generateObject`), and generator inference from a sample object (`Infer.object`);
- `Stage`, which passes resolved fixture values to an action, and the
  run-once wrappers `SingleStage` and `StageSingle`;
- `PreparedFunction`, whose fixed props and inner-prop names exclude each
  other, the fluent `TestValidator`, and the `StagingError` messages.

JavaScript values are the datatype `JsValues.JsVal`, with `Truthy`, `ToStr`
and `ToNumber` for the coercions the code relies on. The seeded random
provider is the module `Chance`: every draw is an arbitrary value within the
provider's documented range, so each contract holds for every seed. Classes
whose fields the source updates (`generatedValue`, `hasRun`, `_props`,
`_object`, …) are Dafny classes. Their methods state their new state with
`modifies` and `old`. A stage's action is code this model cannot see, so it
becomes a record of the argument lists it was called with, plus a flag that
says whether the call throws.

The module layout follows the sources. `Masks` holds the mask and the
character loop shared by the three string versions. `Fixtures` holds the
store type that `GeneratorUtils` and `Stages` share.

## Behaviour as the code has it

The model follows the code where its comments, its defaults or a plain
reading suggest something else:

- A cached `StringDefinition` whose `length` is `null` (the default) throws a
  TypeError in `generate`: `typeof null` is `'object'`, so `null.from` is
  read (generators/string-definition.ts:37-40). This happens in custom mode
  too, even though the constructor's comment says the length does not matter
  there. `StringGenerator.DrawLength` states it.
- The sentinel is injected before the cache is checked, so a call without
  regeneration can still replace the cached value. With length 0 and no
  `NOT_EMPTY`, a sentinel is always injected. Without regeneration, a truthy
  sentinel (`'null'`, `'undefined'`, `{}`, `[]`) is then returned as text. In
  custom mode a pool member is returned instead. Otherwise no character is
  drawn, so the raw sentinel (`null`, `undefined`, `''`, or with regeneration
  also `{}` or `[]`) is cached and returned.
- An empty mask (no class code, or only `NOT_EMPTY`) makes every draw append
  the text `undefined`, because `mask[0]` is `undefined`. After a `null` or
  `undefined` sentinel, the first `+=` is a numeric addition and leaves `NaN`
  (`StringGenerator.Accumulate`).
- `getGeneratorAsValue` calls `generate` only on an entry that OWNS a
  `generate` property. Of the generators only the string one does, because
  its `generate` is an arrow-function field. A dotless name bound to a
  `QRange` or a `BooleanDefinition` is materialised instead and gives `{}`. A
  nested entry with a member named `generate` also owns that property. That
  member is a generator, not a function, so the call throws a TypeError. In
  `c.f`, `c` is always materialised, so `c.f` is `undefined` when `c` is a
  generator.
- `typeof NaN` is `'number'`, so `Infer.object` gives a NaN field a range
  generator.

## Model

| member | source | states |
|---|---|---|
| `Masks.CodesDistinct` | src/QuantiumTester/QuantiumTester.ts:40-57 | the six definition codes (the four class codes and the `ALL` and `NOT_EMPTY` markers) are pairwise distinct |
| `Masks.BuildClassMask` | src/QuantiumTester/QuantiumTester.ts:14-27 | the mask built by successive `+=` is the ordered concatenation lower, upper, digits, special of exactly the requested groups |
| `Masks.BuildMask` | src/QuantiumTester/definitions/generators/string-definition.ts:60-84 | the same, except that `ALL` yields all four groups |
| `Masks.ClassMaskMembership` | src/QuantiumTester/QuantiumTester.ts:16-27 | a character is in the mask iff a requested group holds it |
| `Masks.ClassMaskLength` | src/QuantiumTester/QuantiumTester.ts:16-27 | the mask length is the sum of the requested groups' sizes (26, 26, 10, 32) |
| `Masks.MaskOfAll` | src/QuantiumTester/definitions/generators/string-definition.ts:66-84 | with `ALL` the mask is the 94-character full mask whatever else is listed; without it, the class mask |
| `Masks.MaskEmptyIff` | src/QuantiumTester/definitions/string-definition.ts:32-50 | the mask is empty iff neither `ALL` nor any class code is listed |
| `Masks.GroupRanges` | src/QuantiumTester/definitions/generators/string-definition.ts:68-77 | lower letters are a-z, upper A-Z, digits 0-9, and the special group has no letter or digit |
| `Masks.GroupsDisjoint` | src/QuantiumTester/definitions/generators/string-definition.ts:80-83 | the four groups share no character |
| `Masks.Repeat` | src/QuantiumTester/definitions/generators/string-definition.ts:88-90 | n copies of a text have n times its length (what an empty mask appends) |
| `Masks.DrawChars` | src/QuantiumTester/definitions/generators/string-definition.ts:88-90 | the counting loop appends exactly `max(len, 0)` characters, each from the mask; with an empty mask, `max(len, 0)` copies of "undefined" |
| `Masks.DrawnLength` | src/QuantiumTester/definitions/string-definition.ts:54-56 | the drawn text is `max(len, 0)` long for a non-empty mask and 9 times that for an empty one |
| `Masks.PickFromPool` | src/QuantiumTester/definitions/generators/string-definition.ts:96-98 | custom mode returns a member of the pool; an empty pool makes the provider throw |
| `Masks.EdgeIndexEscapesMask` | src/QuantiumTester/definitions/generators/string-definition.ts:89 | an index equal to the mask length appends "undefined", whose 'u' is not in an upper-case mask |
| `Chance.FloorFloatingIndex` | src/QuantiumTester/definitions/generators/string-definition.ts:89 | an assumption about the provider, not a proved fact: `Math.floor(floating(0, 1) * n)` is taken to be any index in `[0, n]`, n included, as `chance.floating` draws in `[0, 1]` with 1 reachable |
| `LegacyStringDefinition.StringDefinition.constructor` | src/QuantiumTester/definitions/string-definition.ts:10-15 | the getters' fields hold the constructor arguments |
| `LegacyStringDefinition.StringDefinition.RandomString` | src/QuantiumTester/definitions/string-definition.ts:22-63 | throws StringDefError without definitions; custom mode gives a pool member (RangeError on an empty pool); otherwise `max(length, 0)` mask characters; no field changes |
| `QuantiumTester.QuantiumTesting.RandomString` | src/QuantiumTester/QuantiumTester.ts:13-36 | `max(length, 0)` characters, each from the class mask (no `ALL` in this version); the object is not touched |
| `StringGenerator.DrawLength` | src/QuantiumTester/definitions/generators/string-definition.ts:36-43 | a `{from, to}` length is drawn in `[from, to]` (RangeError if reversed), a number is used as is, and `null` throws a TypeError |
| `StringGenerator.DrawInjection` | src/QuantiumTester/definitions/generators/string-definition.ts:47-48 | the draw d is in `[0, 100]`; injection fires iff `len = 0`, or `len > 0` and `d * len <= 100`; always at 0, never below, and above 100 only when d = 0 |
| `StringGenerator.InjectionThreshold` | src/QuantiumTester/definitions/generators/string-definition.ts:47-48 | for every non-zero length and draw d >= 0, the integer test `d * len <= 100` (never for a negative length) agrees with the real-valued `d <= (1 / len) * 100` |
| `StringGenerator.Accumulate` | src/QuantiumTester/definitions/generators/string-definition.ts:87-93 | for characters drawn by the loop: with a positive length and a non-empty mask the result is text that keeps the start value's text and adds exactly `len` characters, all from the mask; with an empty mask it is NaN exactly after a null or undefined start, and otherwise the start's text followed by `len` copies of "undefined" |
| `StringGenerator.StringDefinition.constructor` | src/QuantiumTester/definitions/generators/string-definition.ts:19-24 | the getters' fields hold the constructor arguments, with `length` defaulting to null and `custom` to false; the cache starts undefined |
| `StringGenerator.StringDefinition.Generate` | src/QuantiumTester/definitions/generators/string-definition.ts:30-94 | errors for absent definitions, a null length or a reversed range, cache untouched, and an error only when one of those or an empty custom pool holds; a sentinel from the seven is injected iff NOT_EMPTY is absent, the length resolves and the draw d in [0, 100] passes `InjectionFires(d, len)`; a truthy cache (injected or old) without regeneration returns its text; custom mode picks from the pool without caching; otherwise caches and returns the start value followed by `max(len, 0)` mask characters; every result is the cache, the cache as text, or a pool member |
| `StringGenerator.ZeroLengthKeepsSentinel` | src/QuantiumTester/definitions/generators/string-definition.ts:47-52 | at length 0 injection fires for every draw, no character is drawn and the injected sentinel itself is what the loop leaves; it is not text iff it is null, undefined, `{}` or `[]` |
| `RangeGenerator.QRange.constructor` | src/QuantiumTester/definitions/generators/range.ts:12-21 | stores the bounds and flags, which never change afterwards, and starts with an undefined cache |
| `RangeGenerator.NewQRange` | src/QuantiumTester/definitions/generators/range.ts:14-16 | construction throws a RangeError iff `from > to` |
| `RangeGenerator.QRange.Generate` | src/QuantiumTester/definitions/generators/range.ts:26-48 | a truthy cache without regeneration is returned as a number without a draw; otherwise a nullable (only when allowed) or a value in `[from, to]`, integral in integer mode, is cached and returned; a valid cache stays valid and every result is then a nullable or in range |
| `RangeGenerator.SinglePoint` | src/QuantiumTester/definitions/generators/range.ts:39-42 | an integer draw from `[p, p]` is p |
| `RangeGenerator.CachedStaysInRange` | src/QuantiumTester/definitions/generators/range.ts:27-31 | a truthy cached value the generator produced comes back unchanged and in range |
| `RangeGenerator.GenerateTwice` | src/QuantiumTester/definitions/generators/range.ts:26-48 | two calls without regeneration agree when the first value is truthy, and both are nullables or in range |
| `BooleanGenerator.BooleanDefinition.constructor` | src/QuantiumTester/definitions/generators/boolean.definition.ts:7-12 | stores the two arguments; the cache starts undefined |
| `BooleanGenerator.BooleanDefinition.Generate` | src/QuantiumTester/definitions/generators/boolean.definition.ts:14-32 | a truthy cache without regeneration is returned as is; otherwise null/undefined/`[]` (only when allowed) or a boolean is cached and returned; the initial value plays no part |
| `BooleanGenerator.GenerateTwice` | src/QuantiumTester/definitions/generators/boolean.definition.ts:14-32 | two calls without regeneration agree when the first is truthy; with nullables off and a falsy starting cache, both results are Booleans |
| `GeneratorUtils.Split` | src/QuantiumTester/definitions/generators/generator.utils.ts:16 | `split('.')` always yields at least one piece |
| `GeneratorUtils.JoinSplit` | src/QuantiumTester/definitions/generators/generator.utils.ts:16 | joining the pieces with the separator gives the name back |
| `GeneratorUtils.SplitCount` | src/QuantiumTester/definitions/generators/generator.utils.ts:16-19 | there is one piece more than there are dots, so "more than two pieces" means "two or more dots" |
| `GeneratorUtils.SplitPiecesFree` | src/QuantiumTester/definitions/generators/generator.utils.ts:16 | no piece contains a dot |
| `GeneratorUtils.DottedIffSeveralPieces` | src/QuantiumTester/definitions/generators/generator.utils.ts:14-16 | a name contains a dot iff it splits into several pieces |
| `GeneratorUtils.GenerateMember` | src/QuantiumTester/definitions/generators/generator.utils.ts:43-50 | one member's `generate`: a string member throws only if it can and otherwise returns what its `generate` returned against its new cache; a range member never throws, returns its truthy cache as a number when not regenerating (cache kept) and the new cache otherwise, and keeps a valid cache valid with a nullable or in-range result |
| `GeneratorUtils.Materialise` | src/QuantiumTester/definitions/generators/generator.utils.ts:40-54 | it can change only the generators of the entry `name` (none when it is missing); a missing entry throws; a generator entry gives `{}`; a nested entry throws only if one of its string members can, and otherwise gives exactly its string and range members' keys, each holding that member's `generate` result as `MemberValue` describes it: the truthy range cache when not regenerating, a nullable or in-range value, and, for an instance no other member shares, the new range cache or what the string generator returned |
| `GeneratorUtils.GetGeneratorAsValue` | src/QuantiumTester/definitions/generators/generator.utils.ts:12-32 | it can change only the generators of the entry a dotless name names, or of the container `c` of `c.f` (`NameObjects`); two or more dots, a container or entry that is not an own key of the store, or a nested entry with a `generate` member throw; it throws only in those cases or when a string generator on the path can; a success matches `Resolves`; a dotless string generator gives what its `generate` returned; a nested entry gives its materialised members; `c.f` is field `f` of the materialised `c`, or undefined |
| `GeneratorUtils.NameObjectsInStore` | src/QuantiumTester/definitions/generators/generator.utils.ts:12-32 | the generators a resolution can change all belong to the store |
| `Infer.Object` | src/QuantiumTester/object-creators/Infer.ts:4-25 | exactly the sample's keys; numbers (NaN included) get a fresh `QRange(0, 5000, true, true)`, everything else a fresh `StringDefinition([ALL], {1, 500})`; every new generator's cache is undefined, so an inferred range is valid; no two keys share a generator |
| `Stages.KeptNames` | src/QuantiumTester/definitions/stage/Stage.ts:44-48 | no more names are kept than are listed |
| `Stages.KeptNamesSelect` | src/QuantiumTester/definitions/stage/Stage.ts:44-48 | a name is kept iff it is listed and in the store; all present keeps the list, none present keeps nothing |
| `Stages.KeptNamesAppend` | src/QuantiumTester/definitions/stage/Stage.ts:44-48 | the filter keeps list order across concatenation |
| `Stages.Stage.constructor` | src/QuantiumTester/definitions/stage/Stage.ts:16-22 | the getters' fields hold the constructor values, with the list defaulting to `[]` and the order to 0; nothing is bound or run yet |
| `Stages.Stage.SetObject` | src/QuantiumTester/definitions/stage/Stage.ts:68-70 | binds the store and changes nothing else |
| `Stages.Stage.GetStageProps` | src/QuantiumTester/definitions/stage/Stage.ts:40-52 | it can change only the generators of the listed names present in the store; absent or empty list gives no arguments; an unbound store throws on the first name; otherwise one argument per listed name present in the store, in list order, each one `ResolveArgument`'s result, and an error only when one of those names can fail to resolve |
| `Stages.ResolveArgument` | src/QuantiumTester/definitions/stage/Stage.ts:46 | one name resolved with regeneration, changing only that name's generators: it throws only when the name can fail; a success matches `Resolves`; a dotless string generator gives a freshly generated value (its new cache or a pool member), and nested members give `MemberValue` with regeneration, so no truthy cache is reused |
| `Stages.CollectArguments` | src/QuantiumTester/definitions/stage/Stage.ts:41-50 | the loop over the list changes only the kept names' generators; on success one argument per kept name, in order, each resolving it; an error only when a kept name can fail |
| `Stages.Stage.RunStage` | src/QuantiumTester/definitions/stage/Stage.ts:32-38 | it can change only the kept names' generators and the recorded calls; `Ran`: the action is called at most once and the run then ends as the action does; with no list or the default empty list it is called with no arguments; a non-empty list without a store throws first; with a store it receives the kept names' resolutions and is skipped only when one of them can fail, so it is called whenever the arguments resolve |
| `Stages.Stage.RunStageAsync` | src/QuantiumTester/definitions/stage/Stage.ts:24-30 | the same outcome (`Ran`) as `RunStage` |
| `Stages.SingleStage.constructor` | src/QuantiumTester/definitions/stage/SingleStage.ts:6-7 | `hasRun` starts unset |
| `Stages.SingleStage.RunStage` | src/QuantiumTester/definitions/stage/SingleStage.ts:23-28 | the first call sets the flag and runs the stage, with `Stage.RunStage`'s outcome (`Ran`), even if the action throws; later calls are no-ops |
| `Stages.SingleStage.RunStageAsync` | src/QuantiumTester/definitions/stage/SingleStage.ts:13-18 | the same guard, flag and outcome as the sync path |
| `Stages.SingleStage.SetHasRun` | src/QuantiumTester/definitions/stage/SingleStage.ts:30-36 | the setter stores the flag, so clearing it re-enables one run |
| `Stages.SingleStageTwice` | src/QuantiumTester/definitions/stage/SingleStage.ts:13-28 | two runs on either path: the second is a no-op, the first is the stage's run when the flag was unset, the action is called at most once, and exactly once on an unset flag when the arguments resolve |
| `Stages.StageSingle.constructor` | src/QuantiumTester/definitions/stage/Stage.single.ts:3-4 | `hasRun` starts unset |
| `Stages.StageSingle.RunStage` | src/QuantiumTester/definitions/stage/Stage.single.ts:20-25 | the first call sets the flag and runs the stage, with `Stage.RunStage`'s outcome (`Ran`), even if the action throws; later calls are no-ops |
| `Stages.StageSingle.RunStageAsync` | src/QuantiumTester/definitions/stage/Stage.single.ts:10-15 | the same guard, flag and outcome as the sync path |
| `Stages.StageSingle.SetHasRun` | src/QuantiumTester/definitions/stage/Stage.single.ts:27-33 | the setter can reset the flag |
| `Stages.StageSingleTwice` | src/QuantiumTester/definitions/stage/Stage.single.ts:10-25 | the same as for `SingleStage`: at most one call, exactly one on an unset flag when the arguments resolve |
| `PreparedFunctions.PreparedFunction.constructor` | src/QuantiumTester/definitions/prepared-function.ts:10-18 | stores the three arguments when they do not clash |
| `PreparedFunctions.NewPreparedFunction` | src/QuantiumTester/definitions/prepared-function.ts:15-17 | throws a PropsError iff props and inner props are both truthy |
| `PreparedFunctions.PreparedFunction.SetWithInnerProps` | src/QuantiumTester/definitions/prepared-function.ts:44-49 | refused, with both fields unchanged, while props are truthy; otherwise stores the list; the exclusion invariant is kept |
| `PreparedFunctions.PreparedFunction.SetProps` | src/QuantiumTester/definitions/prepared-function.ts:55-60 | refused, with both fields unchanged, while an inner-props list is set; otherwise stores the value; the invariant is kept |
| `PreparedFunctions.ExclusiveModes` | src/QuantiumTester/definitions/prepared-function.ts:28-34 | under the invariant, the two `shouldExecuteWith*` answers are never both true |
| `PreparedFunctions.SetInnerPropsThenProps` | src/QuantiumTester/definitions/prepared-function.ts:44-60 | setting inner props and then props refuses the second and keeps the invariant |
| `TestValidators.OrdinalBijective` | src/QuantiumTester/test-validator/test-validator.ts:38-41 | the enum numbering is one-to-one and onto {0, 1}: MATCH_EXACTLY is 0 and INCLUDE_VALUE is 1 |
| `TestValidators.TestValidator.constructor` | src/QuantiumTester/test-validator/test-validator.ts:1-7 | every field starts unset |
| `TestValidators.TestValidator.SetHandleValidation` | src/QuantiumTester/test-validator/test-validator.ts:14-18 | stores both arguments, an undefined `shouldHandle` as true, changes nothing else and returns the same validator |
| `TestValidators.TestValidator.ExpectToMatchExact` | src/QuantiumTester/test-validator/test-validator.ts:20-23 | selects MATCH_EXACTLY only and returns the same validator |
| `TestValidators.TestValidator.SetMatchCase` | src/QuantiumTester/test-validator/test-validator.ts:25-31 | the getter reads back what the setter stored |
| `TestValidators.Configure` | src/QuantiumTester/test-validator/test-validator.ts:14-23 | chained calls keep each other's settings |
| `StagingErrors.Message` | src/QuantiumTester/errors/staging.error.ts:2-13 | STAGE_EXISTS gives the "already been defined" message, STAGE_NOT_FOUND the "not found" message, any other code the undefined-error message, each iff |
| `StagingErrors.MessagesDistinguishCodes` | src/QuantiumTester/errors/staging.error.ts:3-19 | two codes share a message iff they are equal or both unknown |

## Findings

| source | as written | input that shows it | evidently intended | confidence | as-written member | corrected member |
|---|---|---|---|---|---|---|
| src/QuantiumTester/definitions/generators/string-definition.ts:89 (also src/QuantiumTester/definitions/string-definition.ts:55) | the index is `Math.floor(chance.floating({min: 0, max: 1}) * mask.length)`; the provider's `floating` returns a multiple of 1/10000 in `[0, 1]` with 1 reachable, so the index can equal `mask.length` and `mask[index]` is `undefined` | definitions `['A']` (upper case only), length 1, a `floating` draw of exactly 1: the result is "undefined", whose letters are not in the mask | an index in `[0, mask.length)`, so every character comes from the mask (as with `Math.random()` in src/QuantiumTester/QuantiumTester.ts:32) | not executed; medium: it rests on the provider's documented inclusive range, and the provider is not part of this model | `Masks.EdgeIndexEscapesMask` | `Masks.DrawChars` |

The as-written index is `Chance.FloorFloatingIndex`. The generators use the
corrected index, `Chance.MaskIndex`.

## Left out

- The provider's sequence of draws, its seeding and its probabilities. Every draw is an arbitrary value in its range, so the 5 % and `100/len` % rates are stated only as the conditions under which injection can happen.
- Floating point. JavaScript values are reals. The bounds of `QRange` and of a `{from, to}` string length are integers, so non-integer bounds such as `new QRange(0.5, 1.5)` are not modelled. In non-integer mode `QRange` draws an arbitrary real in `[from, to]`, and the provider's four-decimal rounding is not modelled. Non-integer string lengths are not modelled.
- Awaiting in `runStageAsync` and `executeWithAsync`. The async stage paths share the sync argument and flag logic. `executeWithAsync` is the same call as `executeWith`.
- The order in which `generateObject` visits keys. It is left unspecified, so which member's error is reported first is not fixed.
- `QuantiumTesting.setProperty` and the `_object` field (src/QuantiumTester/QuantiumTester.ts:2-6). The setter writes the literal key `name` into a field that is never initialised, and nothing in the core depends on either.
- The session engine (stage registry, ordering, `StageExists`/`StageNotFound` raising, exposed values, repeated assertions, failure log). It is not part of this model.
- The data holders with no behaviour: assertion variables, descriptors, the logger model, the old `Stage` record, `IGenerator`, the superseded src/QuantiumTester/range.ts, and the console warning of `Infer.object`.
- The enum `StringDefinitionValue` that the string generators and `Infer.object` import. It is not in the src/QuantiumTester/QuantiumTester.ts of this model, which defines only the `StringDefinition` enum. Its four class codes are taken to be that enum's `'a'`, `'A'`, `'#'` and `'!'`. Its `ALL` and `NOT_EMPTY` codes are stood in for by `"ALL"` and `"NOT_EMPTY"`, which are only required to differ from the other codes.
- `ToNumber` parses only `''` and plain decimal digits. Signs, decimals, exponents and whitespace give NaN here.
- StringGenerator.StringDefinition.Generate: which pool member custom mode returns, and the characters' distribution, are not pinned down beyond membership.
- StringGenerator.StringDefinition.Generate: the cache is never a number. The generator itself stores only text or a sentinel, and a number written into the public `generatedValue` field from outside, which a truthy cache would return as its decimal text, is not modelled.
- GeneratorUtils.Materialise: when two members share one generator instance, a later call can overwrite the cache an earlier one left. For such members only the range facts that hold whatever the order are stated, not the tie to the final cache.
- `Infer.object` on a `null` or `undefined` sample, where `Object.keys` throws a TypeError. The sample is a map here, so that case cannot be written.
- PreparedFunctions.PreparedFunction.ExecuteWith: a definition only. The callback is code this model cannot see, so nothing is stated about the call beyond applying it to the given arguments.
- Stages.Stage.GetStageProps: each argument is described by the shape `Resolves` gives it. Its value is stated per call by `Stages.ResolveArgument`; across the whole list it is not tied to the generators' final caches, since a later name can regenerate a generator an earlier one used.
- The call at src/QuantiumTester/definitions/stage/Stage.ts:46 as written. It names `GeneratorUtils.getGeneratorFromInnerAsValue`, which generator.utils.ts does not define, so it does not type-check and, run as JavaScript, it throws a TypeError for every kept name. The model resolves each name with `getGeneratorAsValue(name, true, store)`, the only resolver there is, which the call evidently means.
- Names inherited from `Object.prototype`. The source reads `innerObject[name]` through the prototype chain (src/QuantiumTester/definitions/generators/generator.utils.ts:25, 42), so a name such as `toString` is found there. The store is a map of own keys, so such a name is treated as missing and throws a TypeError, or gives undefined after a dot.
- Getters are not separate members. The fields they read are `const` where the source never reassigns them, and the constructors' contracts state their values.

=== FILE: BooleanGenerator.dfy ===
/**
 * The boolean generator (src/QuantiumTester/definitions/generators/boolean.definition.ts):
 * a truthiness-guarded cache and a 5 % chance of a nullable value when
 * nullables are allowed. The constructor's initial value is stored and never read.
 */
module BooleanGenerator {
  import opened JsValues
  import Chance

  class BooleanDefinition {
    /** The cache; `undefined` until the first draw. */
    var generatedValue: JsVal
    const initialValue: bool
    const allowNullable: bool

    /** Stores the flags; the cache starts undefined. */
    constructor (initialValue: bool, allowNullable: bool := false)
      ensures this.initialValue == initialValue && this.allowNullable == allowNullable
      ensures generatedValue == Undefined
    {
      this.initialValue := initialValue;
      this.allowNullable := allowNullable;
      generatedValue := Undefined;
    }

    /**
     * `generate(regenerateIfExists)`. A truthy cache (`true`, or a cached `[]`)
     * is returned as it is unless regeneration is asked for; a cached `false`
     * counts as absent. A draw caches what it returns. Nothing here depends on
     * `initialValue`.
     */
    method Generate(regenerate: bool := false) returns (r: JsVal)
      modifies this`generatedValue
      ensures !regenerate && Truthy(old(generatedValue)) ==>
        r == old(generatedValue) && generatedValue == old(generatedValue)
      ensures regenerate || !Truthy(old(generatedValue)) ==>
        generatedValue == r
        && (r in BooleanNullables ==> allowNullable)
        && (r !in BooleanNullables ==> r.Bool?)
        && (r in BooleanNullables || r.Bool?)
    {
      if !regenerate && Truthy(generatedValue) {
        return generatedValue;
      }
      if allowNullable {
        var d := Chance.Percent();
        if d <= 5 {
          r := Chance.PickOne(BooleanNullables);
          generatedValue := r;
          return;
        }
      }
      r := Chance.PickOne([Bool(true), Bool(false)]);
      generatedValue := r;
    }
  }

  /**
   * Two calls without regeneration agree when the first value is truthy;
   * with nullables off, a falsy starting cache gives two Booleans.
   */
  method GenerateTwice(g: BooleanDefinition) returns (a: JsVal, b: JsVal)
    modifies g
    ensures Truthy(a) ==> b == a
    ensures !g.allowNullable && !Truthy(old(g.generatedValue)) ==> a.Bool? && b.Bool?
  {
    a := g.Generate(false);
    b := g.Generate(false);
  }
}

=== FILE: Chance.dfy ===
/**
 * The seeded random provider the generators consume. Its sequence of draws
 * is not modelled: each draw is an arbitrary value with only the range
 * guarantee that the provider documents.
 */
module Chance {
  import opened Wrappers
  import opened JsValues

  /**
   * `chance.integer({min, max})`: an integer in `[min, max]` inclusive; the
   * provider throws a RangeError when `min > max`.
   */
  method Integer(min: int, max: int) returns (r: Result<int, Error>)
    ensures r.Err? <==> min > max
    ensures r.Err? ==> r.error == RangeError
    ensures r.Ok? ==> min <= r.value <= max
  {
    if min > max {
      r := Err(RangeError);
    } else {
      var d :| min <= d <= max;
      r := Ok(d);
    }
  }

  /** A percentage draw `chance.integer({min: 0, max: 100})`. */
  method Percent() returns (d: int)
    ensures 0 <= d <= 100
  {
    d :| 0 <= d <= 100;
  }

  /** `chance.pickone(pool)` on a non-empty literal pool. */
  method PickOne<T>(pool: seq<T>) returns (x: T)
    requires |pool| > 0
    ensures x in pool
  {
    var i :| 0 <= i < |pool|;
    x := pool[i];
  }

  /**
   * `Math.floor(chance.floating({min: 0, max: 1}) * n)` as the provider
   * actually behaves: `floating` draws a multiple of 1/10000 in `[0, 1]`
   * with both ends reachable, so the index can equal n itself.
   */
  method FloorFloatingIndex(n: nat) returns (k: nat)
    ensures k <= n
  {
    k :| k <= n;
  }

  /**
   * The index the generators evidently intend: a position of the mask when
   * the mask is non-empty, and 0 when it is empty.
   */
  method MaskIndex(n: nat) returns (k: nat)
    ensures n > 0 ==> k < n
    ensures n == 0 ==> k == 0
  {
    if n == 0 {
      k := 0;
    } else {
      k :| k < n;
    }
  }
}

=== FILE: Fixtures.dfy ===
/**
 * The fixture store the stages and `GeneratorUtils` read: names bound to a
 * generator or to a nested object of entries, with the set of generator
 * objects a resolution may touch.
 */
module Fixtures {
  import StringGenerator
  import RangeGenerator
  import BooleanGenerator
  import opened JsValues

  /** A generator instance; the three classes share no base here. */
  datatype Generator =
    | StringGen(s: StringGenerator.StringDefinition)
    | RangeGen(q: RangeGenerator.QRange)
    | BooleanGen(b: BooleanGenerator.BooleanDefinition)

  /** A store entry: a generator, or a nested object of entries. */
  datatype Slot = GenSlot(g: Generator) | Group(members: map<string, Slot>)

  type Store = map<string, Slot>

  function GenObject(g: Generator): object {
    match g
    case StringGen(s) => s
    case RangeGen(q) => q
    case BooleanGen(b) => b
  }

  /** The generator's cache, `generatedValue`. */
  function Cache(g: Generator): JsVal
    reads GenObject(g)
  {
    match g
    case StringGen(s) => s.generatedValue
    case RangeGen(q) => q.generatedValue
    case BooleanGen(b) => b.generatedValue
  }

  /** No other member of `m` is the same generator instance as the member at `k`. */
  predicate Unshared(m: map<string, Slot>, k: string)
    requires k in m && m[k].GenSlot?
  {
    forall j :: j in m && j != k && m[j].GenSlot? ==> GenObject(m[j].g) != GenObject(m[k].g)
  }

  /** The generators a resolution of this entry can call: itself, or its direct members. */
  function SlotObjects(slot: Slot): set<object> {
    match slot
    case GenSlot(g) => {GenObject(g)}
    case Group(m) => set k | k in m && m[k].GenSlot? :: GenObject(m[k].g)
  }

  /** The generators a resolution of the entry `name` can call; none when there is no such entry. */
  function EntryObjects(name: string, store: Store): set<object> {
    if name in store then SlotObjects(store[name]) else {}
  }

  function StoreObjects(store: Store): set<object> {
    set k, o | k in store && o in SlotObjects(store[k]) :: o
  }

  /** Range generators of the entry keep their constructor guard (a constant fact). */
  predicate SlotOrdered(slot: Slot) {
    match slot
    case GenSlot(g) => g.RangeGen? ==> g.q.Ordered()
    case Group(m) => forall k :: k in m && m[k].GenSlot? && m[k].g.RangeGen? ==> m[k].g.q.Ordered()
  }

  predicate StoreOrdered(store: Store) {
    forall k :: k in store ==> SlotOrdered(store[k])
  }

  /** A generator that is an entry, or a member of a nested entry, belongs to the store's objects. */
  lemma StoreObjectsCover(store: Store, name: string)
    requires name in store
    ensures store[name].GenSlot? ==> GenObject(store[name].g) in StoreObjects(store)
    ensures store[name].Group? ==> forall k :: k in store[name].members && store[name].members[k].GenSlot? ==>
      GenObject(store[name].members[k].g) in StoreObjects(store)
  {
    match store[name]
    case GenSlot(g) =>
      assert GenObject(g) in SlotObjects(store[name]);
    case Group(m) =>
      forall k | k in m && m[k].GenSlot?
        ensures GenObject(m[k].g) in StoreObjects(store)
      {
        assert GenObject(m[k].g) in SlotObjects(store[name]);
      }
  }
}

=== FILE: GeneratorUtils.dfy ===
/**
 * Fixture-name resolution (src/QuantiumTester/definitions/generators/generator.utils.ts):
 * `getGeneratorAsValue` resolves a name with at most one dot against the
 * store, and `generateObject` turns a nested object of generators into a
 * plain object of generated values.
 */
module GeneratorUtils {
  import opened Wrappers
  import opened JsValues
  import opened Fixtures
  import RangeGenerator
  import StringGenerator

  /** What a resolution returns: one value, or a materialised plain object. */
  datatype Resolved = Value(v: JsVal) | Object(fields: map<string, JsVal>)

  /** `s.split(sep)`: the pieces between separators; the empty string gives `[""]`. */
  function Split(s: string, sep: char): (parts: seq<string>)
    ensures |parts| >= 1
  {
    if s == [] then [""]
    else
      var rest := Split(s[1..], sep);
      if s[0] == sep then [""] + rest else [[s[0]] + rest[0]] + rest[1..]
  }

  /** `parts.join(sep)`. */
  function Join(parts: seq<string>, sep: char): string
    requires |parts| >= 1
  {
    if |parts| == 1 then parts[0] else parts[0] + [sep] + Join(parts[1..], sep)
  }

  /** The number of occurrences of `c` in `s`. */
  function Count(s: string, c: char): nat {
    if s == [] then 0 else (if s[0] == c then 1 else 0) + Count(s[1..], c)
  }

  /** Joining the pieces with the separator gives the name back. */
  lemma {:induction false} JoinSplit(s: string, sep: char)
    ensures Join(Split(s, sep), sep) == s
  {
    if s != [] {
      var rest := Split(s[1..], sep);
      JoinSplit(s[1..], sep);
      if s[0] == sep {
        assert Split(s, sep) == [""] + rest;
        assert ([""] + rest)[1..] == rest;
      } else {
        var parts := Split(s, sep);
        assert parts == [[s[0]] + rest[0]] + rest[1..];
        if |rest| == 1 {
          assert parts == [[s[0]] + rest[0]];
        } else {
          assert parts[1..] == rest[1..];
          assert Join(rest, sep) == rest[0] + [sep] + Join(rest[1..], sep);
        }
      }
    }
  }

  /** There is one piece more than there are separators. */
  lemma {:induction false} SplitCount(s: string, sep: char)
    ensures |Split(s, sep)| == Count(s, sep) + 1
  {
    if s != [] {
      SplitCount(s[1..], sep);
    }
  }

  /** No piece contains the separator. */
  lemma {:induction false} SplitPiecesFree(s: string, sep: char)
    ensures forall i :: 0 <= i < |Split(s, sep)| ==> sep !in Split(s, sep)[i]
  {
    if s != [] {
      SplitPiecesFree(s[1..], sep);
    }
  }

  /** A name contains a dot iff it splits into more than one piece. */
  lemma {:induction false} DottedIffSeveralPieces(s: string, sep: char)
    ensures sep in s <==> |Split(s, sep)| > 1
  {
    SplitCount(s, sep);
    CountPositive(s, sep);
  }

  lemma {:induction false} CountPositive(s: string, c: char)
    ensures c in s <==> Count(s, c) > 0
  {
    if s != [] {
      CountPositive(s[1..], c);
      assert s == [s[0]] + s[1..];
    }
  }

  /** The keys `generateObject` keeps: members that are string or range generators. */
  function MaterialKeys(m: map<string, Slot>): set<string> {
    set k | k in m && m[k].GenSlot? && (m[k].g.StringGen? || m[k].g.RangeGen?)
  }

  /** The member at `k` is a range generator. */
  predicate IsRange(m: map<string, Slot>, k: string) {
    k in m && m[k].GenSlot? && m[k].g.RangeGen?
  }

  /** The entry is a string generator whose `generate` can throw. */
  predicate SlotCanFail(slot: Slot) {
    slot.GenSlot? && slot.g.StringGen? && slot.g.s.CanFail()
  }

  /** Materialising the entry can throw: one of its string members can. */
  predicate MaterialCanFail(slot: Slot) {
    slot.Group? && exists k :: k in slot.members && SlotCanFail(slot.members[k])
  }

  /**
   * What `generate` of the member at `k` gave, against the member's cache
   * `before` the resolution began. A range member returns its truthy cache
   * as a number unless regenerating, and always a nullable or an in-range
   * value when its cache was one. When no other member shares the instance,
   * a drawn range value is the new cache, and a string value is what that
   * generator returned against its new cache.
   */
  predicate MemberValue(m: map<string, Slot>, k: string, regenerate: bool, v: JsVal, before: JsVal)
    reads if k in m && m[k].GenSlot? then {GenObject(m[k].g)} else {}
  {
    k in m && m[k].GenSlot?
    && match m[k].g
       case RangeGen(q) =>
         && (!regenerate && Truthy(before) ==> v == ToNumber(before))
         && (before in RangeNullables || RangeGenerator.InRange(before, q.from, q.to, q.asInteger) ==>
               v in RangeNullables || RangeGenerator.InRange(v, q.from, q.to, q.asInteger))
         && (Unshared(m, k) && (regenerate || !Truthy(before)) ==> v == q.generatedValue)
       case StringGen(s) => Unshared(m, k) ==> s.Returned(v, regenerate)
       case BooleanGen(_) => false
  }

  /** `before` is a cache the range generator `q` could have produced. */
  predicate ValidCache(q: RangeGenerator.QRange, before: JsVal) {
    before in RangeNullables || RangeGenerator.InRange(before, q.from, q.to, q.asInteger)
  }

  /**
   * The state of `generateObject` part-way through the members, against
   * their caches `before` it began: a range generator still holds a truthy
   * `before` unless regenerating, holds a valid cache if `before` was valid,
   * an instance still to be visited that no other member shares still holds
   * `before`, and each value so far satisfies `MemberValue`.
   */
  ghost predicate Progress(m: map<string, Slot>, regenerate: bool, before: map<string, JsVal>,
                     keys: set<string>, obj: map<string, JsVal>)
    reads SlotObjects(Group(m))
  {
    && (forall j :: j in m && m[j].GenSlot? ==> j in before)
    && (forall j :: IsRange(m, j) && !regenerate && Truthy(before[j]) ==> m[j].g.q.generatedValue == before[j])
    && (forall j :: IsRange(m, j) && ValidCache(m[j].g.q, before[j]) ==> m[j].g.q.Valid())
    && (forall j :: j in keys && j in m && m[j].GenSlot? && Unshared(m, j) ==> Cache(m[j].g) == before[j])
    && (forall j :: j in obj ==> j in before && MemberValue(m, j, regenerate, obj[j], before[j]))
  }

  /** Before any member is visited, the loop state holds of the members' current caches. */
  lemma ProgressStart(m: map<string, Slot>, regenerate: bool, before: map<string, JsVal>)
    requires before == map j | j in m && m[j].GenSlot? :: Cache(m[j].g)
    ensures Progress(m, regenerate, before, m.Keys, map[])
  {
  }

  /**
   * One member's `generate` call as `generateObject` makes it: a string
   * member throws only if it can and otherwise returns what its `generate`
   * did; a range member behaves as `QRange.generate` against its cache.
   */
  method GenerateMember(m: map<string, Slot>, k: string, regenerate: bool) returns (res: Result<JsVal, Error>)
    requires k in MaterialKeys(m)
    requires m[k].g.RangeGen? ==> m[k].g.q.Ordered()
    modifies GenObject(m[k].g)
    ensures res.Err? ==> SlotCanFail(m[k])
    ensures res.Ok? && m[k].g.StringGen? ==> m[k].g.s.Returned(res.value, regenerate)
    ensures m[k].g.RangeGen? ==>
      var q := m[k].g.q;
      && res.Ok?
      && (!regenerate && Truthy(old(q.generatedValue)) ==>
            res.value == ToNumber(old(q.generatedValue)) && q.generatedValue == old(q.generatedValue))
      && (regenerate || !Truthy(old(q.generatedValue)) ==> res.value == q.generatedValue)
      && (old(q.Valid()) ==> q.Valid() && (res.value in RangeNullables || RangeGenerator.InRange(res.value, q.from, q.to, q.asInteger)))
  {
    match m[k].g
    case StringGen(s) =>
      var r, _, _, _, _ := s.Generate(regenerate);
      res := r;
    case RangeGen(q) =>
      var v := q.Generate(regenerate);
      res := Ok(v);
  }

  /** One turn of the `generateObject` loop: the member's call keeps the loop state for the members that remain. */
  method MaterialiseStep(m: map<string, Slot>, k: string, regenerate: bool,
                         ghost before: map<string, JsVal>, ghost keys: set<string>, ghost obj: map<string, JsVal>)
    returns (res: Result<JsVal, Error>)
    requires k in MaterialKeys(m) && k in keys && k !in obj
    requires SlotOrdered(Group(m))
    requires Progress(m, regenerate, before, keys, obj)
    modifies GenObject(m[k].g)
    ensures res.Err? ==> SlotCanFail(m[k])
    ensures res.Ok? ==> Progress(m, regenerate, before, keys - {k}, obj[k := res.value])
  {
    ghost var o := GenObject(m[k].g);
    res := GenerateMember(m, k, regenerate);
    if res.Err? {
      return;
    }
    // Only `o` changed: every other member keeps its cache.
    forall j | j in m && m[j].GenSlot? && GenObject(m[j].g) != o
      ensures Cache(m[j].g) == old(Cache(m[j].g))
    {
    }
    forall j | IsRange(m, j) && ValidCache(m[j].g.q, before[j])
      ensures m[j].g.q.Valid()
    {
      if GenObject(m[j].g) != o {
        assert Cache(m[j].g) == old(Cache(m[j].g));
      }
    }
    assert MemberValue(m, k, regenerate, res.value, before[k]);
    forall j | j in obj
      ensures MemberValue(m, j, regenerate, obj[j], before[j])
    {
      assert old(MemberValue(m, j, regenerate, obj[j], before[j]));
      if GenObject(m[j].g) == o {
        assert !Unshared(m, j);
      }
    }
  }

  /**
   * `generateObject(name, regenerate, store)`: `Object.keys` of the entry,
   * keeping the string and range generators, each generated with the same
   * `regenerate` flag. A generator entry itself has no generator-valued own
   * keys, so it materialises to `{}`; a missing entry makes `Object.keys`
   * throw. Keys are visited in an unspecified order.
   */
  method Materialise(name: string, regenerate: bool, store: Store) returns (r: Result<map<string, JsVal>, Error>)
    requires StoreOrdered(store)
    modifies EntryObjects(name, store)
    ensures name !in store ==> r == Err(TypeError)
    ensures name in store && store[name].GenSlot? ==> r == Ok(map[])
    ensures name in store && store[name].Group? && r.Err? ==> MaterialCanFail(store[name])
    ensures name in store && store[name].Group? && r.Ok? ==>
      && r.value.Keys == MaterialKeys(store[name].members)
      && forall k :: k in MaterialKeys(store[name].members) ==>
           MemberValue(store[name].members, k, regenerate, r.value[k], old(Cache(store[name].members[k].g)))
  {
    if name !in store {
      return Err(TypeError);
    }
    if store[name].GenSlot? {
      return Ok(map[]);
    }
    var m := store[name].members;
    StoreObjectsCover(store, name);
    var keys := m.Keys;
    var obj: map<string, JsVal> := map[];
    ghost var before := map j | j in m && m[j].GenSlot? :: Cache(m[j].g);
    ProgressStart(m, regenerate, before);
    while keys != {}
      invariant keys <= m.Keys
      invariant obj.Keys == MaterialKeys(m) - keys
      invariant Progress(m, regenerate, before, keys, obj)
      decreases keys
    {
      var k :| k in keys;
      if k in MaterialKeys(m) {
        var res := MaterialiseStep(m, k, regenerate, before, keys, obj);
        if res.Err? {
          return Err(res.error);
        }
        obj := obj[k := res.value];
      }
      keys := keys - {k};
    }
    forall k | k in MaterialKeys(m)
      ensures MemberValue(m, k, regenerate, obj[k], old(Cache(m[k].g)))
    {
      assert before[k] == old(Cache(m[k].g));
    }
    r := Ok(obj);
  }

  /**
   * What a successful resolution of `name` can return, as far as the store's
   * shape decides it. `c.f` gives a value: undefined unless `c` is a nested
   * object with a string or range generator at `f`. A dotless name gives the
   * string generator's value, `{}` for any other generator entry, or the
   * materialised nested object (one without a `generate` member).
   */
  predicate Resolves(name: string, store: Store, res: Resolved) {
    var parts := Split(name, '.');
    if |parts| > 2 then false
    else if |parts| == 2 then
      parts[0] in store && res.Value?
      && (store[parts[0]].GenSlot? ==> res == Value(Undefined))
      && (store[parts[0]].Group? && parts[1] !in MaterialKeys(store[parts[0]].members) ==> res == Value(Undefined))
    else
      name in store
      && match store[name]
         case GenSlot(g) => if g.StringGen? then res.Value? else res == Object(map[])
         case Group(m) => "generate" !in m && res.Object? && res.fields.Keys == MaterialKeys(m)
  }

  /**
   * The generators resolving `name` can call: those of the entry a dotless
   * name names, or of the container `c` of `c.f`; none for a deeper name.
   */
  function NameObjects(name: string, store: Store): set<object> {
    var parts := Split(name, '.');
    if '.' !in name then EntryObjects(name, store)
    else if |parts| == 2 then EntryObjects(parts[0], store)
    else {}
  }

  /** Resolving a name calls only generators of the store. */
  lemma NameObjectsInStore(name: string, store: Store)
    ensures NameObjects(name, store) <= StoreObjects(store)
  {
    var parts := Split(name, '.');
    var entry := if '.' !in name then name else parts[0];
    if entry in store && NameObjects(name, store) != {} {
      StoreObjectsCover(store, entry);
    }
  }

  /**
   * Resolving `name` can throw: two or more dots, a missing container or
   * entry, a nested entry with a `generate` member (called as a function),
   * or a string generator on the path whose `generate` can throw.
   */
  predicate MayFail(name: string, store: Store) {
    var parts := Split(name, '.');
    if |parts| > 2 then true
    else if |parts| == 2 then parts[0] !in store || MaterialCanFail(store[parts[0]])
    else
      name !in store || SlotCanFail(store[name])
      || (store[name].Group? && "generate" in store[name].members) || MaterialCanFail(store[name])
  }

  /**
   * `getGeneratorAsValue(name, regenerate, store)`. A name with two or more
   * dots throws; `c.f` is field `f` of the materialised `c` (never `c`'s own
   * `generate`). A dotless name calls `generate` when the entry owns a
   * `generate` property: of the generators only the string one does (an
   * arrow-function field), and a nested entry with a `generate` member throws
   * a TypeError, since that member is not a function. Every other entry is
   * materialised. A missing entry throws a TypeError; names inherited from
   * `Object.prototype` count as missing, since the store holds only own keys.
   */
  method GetGeneratorAsValue(name: string, regenerate: bool, store: Store) returns (r: Result<Resolved, Error>)
    requires StoreOrdered(store)
    modifies NameObjects(name, store)
    ensures |Split(name, '.')| > 2 ==> r == Err(DepthError)
    ensures |Split(name, '.')| == 2 && Split(name, '.')[0] !in store ==> r == Err(TypeError)
    ensures '.' !in name && name !in store ==> r == Err(TypeError)
    ensures '.' !in name && name in store && store[name].Group? && "generate" in store[name].members ==>
      r == Err(TypeError)
    ensures r.Err? ==> MayFail(name, store)
    ensures r.Ok? ==> Resolves(name, store, r.value)
    // The values: a string generator's own result; the materialised members.
    ensures r.Ok? && '.' !in name && store[name].GenSlot? && store[name].g.StringGen? ==>
      store[name].g.s.Returned(r.value.v, regenerate)
    ensures r.Ok? && '.' !in name && store[name].Group? ==>
      var m := store[name].members;
      && r.value.Object?
      && forall k :: k in MaterialKeys(m) ==> MemberValue(m, k, regenerate, r.value.fields[k], old(Cache(m[k].g)))
    ensures r.Ok? && |Split(name, '.')| == 2 ==>
      var c := Split(name, '.')[0];
      var f := Split(name, '.')[1];
      store[c].Group? && f in MaterialKeys(store[c].members) ==>
        MemberValue(store[c].members, f, regenerate, r.value.v, old(Cache(store[c].members[f].g)))
  {
    DottedIffSeveralPieces(name, '.');
    if '.' in name {
      var parts := Split(name, '.');
      if |parts| > 2 {
        return Err(DepthError);
      }
      var obj := Materialise(parts[0], regenerate, store);
      if obj.Err? {
        return Err(obj.error);
      }
      var field := parts[1];
      return Ok(Value(if field in obj.value then obj.value[field] else Undefined));
    }
    if name !in store {
      return Err(TypeError);
    }
    if store[name].GenSlot? && store[name].g.StringGen? {
      StoreObjectsCover(store, name);
      var res, _, _, _, _ := store[name].g.s.Generate(regenerate);
      if res.Err? {
        return Err(res.error);
      }
      return Ok(Value(res.value));
    }
    if store[name].Group? && "generate" in store[name].members {
      return Err(TypeError);
    }
    var obj := Materialise(name, regenerate, store);
    if obj.Err? {
      return Err(obj.error);
    }
    r := Ok(Object(obj.value));
  }
}

=== FILE: Infer.dfy ===
/**
 * Generator inference from a sample object (src/QuantiumTester/object-creators/Infer.ts):
 * every own key of the sample gets a fresh generator chosen by the runtime
 * type of its value.
 */
module Infer {
  import opened JsValues
  import opened Fixtures
  import Masks
  import Wrappers
  import StringGenerator
  import RangeGenerator

  /** `typeof v === 'number'`, which holds for NaN too. */
  predicate IsNumber(v: JsVal) {
    v.Num? || v.NaN?
  }

  /** The full-alphabet string generator of length 1 to 500, with its defaults. */
  predicate IsDefaultString(g: Generator) {
    g.StringGen?
    && g.s.definitions == Wrappers.Some([Masks.AllCode])
    && g.s.length == StringGenerator.Span(1, 500)
    && !g.s.custom
  }

  /** The integer range generator over `[0, 5000]` with nullables allowed. */
  predicate IsDefaultRange(g: Generator) {
    g.RangeGen?
    && g.q.from == 0 && g.q.to == 5000 && g.q.asInteger && g.q.allowNullable && g.q.Ordered()
  }

  /** The generator a sample value calls for: numbers get the range, anything else the string. */
  predicate InferredFor(v: JsVal, g: Generator) {
    if IsNumber(v) then IsDefaultRange(g) else IsDefaultString(g)
  }

  /**
   * `Infer.object(sample, verbose)`: exactly the sample's keys, each mapped to
   * a new generator chosen by the value's type, with an undefined cache;
   * `verbose` only controls a console warning and the sample is not modified.
   */
  method Object(sample: map<string, JsVal>, verbose: bool) returns (r: map<string, Generator>)
    ensures r.Keys == sample.Keys
    ensures forall k :: k in r ==> InferredFor(sample[k], r[k]) && fresh(GenObject(r[k]))
    // Each generator is new, so its cache is `undefined` and an inferred range is valid.
    ensures forall k :: k in r ==> Cache(r[k]) == Undefined
    ensures forall k :: k in r && r[k].RangeGen? ==> r[k].q.Valid()
    ensures forall k1, k2 :: k1 in r && k2 in r && k1 != k2 ==> GenObject(r[k1]) != GenObject(r[k2])
  {
    r := map[];
    var keys := sample.Keys;
    while keys != {}
      invariant keys <= sample.Keys
      invariant r.Keys == sample.Keys - keys
      invariant forall k :: k in r ==> InferredFor(sample[k], r[k]) && fresh(GenObject(r[k]))
      invariant forall k :: k in r ==> Cache(r[k]) == Undefined
      invariant forall k1, k2 :: k1 in r && k2 in r && k1 != k2 ==> GenObject(r[k1]) != GenObject(r[k2])
      decreases keys
    {
      var k :| k in keys;
      keys := keys - {k};
      var g: Generator;
      if IsNumber(sample[k]) {
        var q := new RangeGenerator.QRange(0, 5000, true, true);
        g := RangeGen(q);
      } else {
        var s := new StringGenerator.StringDefinition(Wrappers.Some([Masks.AllCode]), StringGenerator.Span(1, 500), false);
        g := StringGen(s);
      }
      r := r[k := g];
    }
  }
}

=== FILE: JsValues.dfy ===
/**
 * The JavaScript values the generators produce and cache, with the three
 * coercions the code relies on: truthiness (`if (x)`, `!x`), string
 * conversion (`x.toString()`, `'' + x`) and numeric conversion (`+x`).
 */
module JsValues {

  /**
   * A JavaScript value as far as the generators see it: the primitives,
   * and the empty object `{}` and the empty array `[]` that the sentinel
   * pools contain. Numbers are reals (JavaScript numbers are doubles).
   */
  datatype JsVal =
    | Null
    | Undefined
    | NaN
    | Str(s: string)
    | Num(x: real)
    | Bool(b: bool)
    | EmptyObj
    | EmptyArr

  /** JavaScript values that are not numbers: what a string generator caches. */
  type NonNumber = v: JsVal | !v.Num? witness Undefined

  /** The errors the modelled code throws. */
  datatype Error =
    | StringDefError       // a string generator without definitions
    | TypeError            // a property read on `null` / `undefined`
    | RangeError           // `from > to`, in a range or in a draw from the provider
    | PropsError(message: string)
    | DepthError           // a fixture name with more than one dot
    | ActionError          // a stage's action threw

  /** JavaScript truthiness: `false`, `0`, `NaN`, `''`, `null` and `undefined` are falsy. */
  predicate Truthy(v: JsVal) {
    match v
    case Null => false
    case Undefined => false
    case NaN => false
    case Str(s) => s != ""
    case Num(x) => x != 0.0
    case Bool(b) => b
    case EmptyObj => true
    case EmptyArr => true
  }

  /** `String(v)` for the values a string generator can hold. */
  function ToStr(v: NonNumber): string {
    match v
    case Null => "null"
    case Undefined => "undefined"
    case NaN => "NaN"
    case Str(s) => s
    case Bool(b) => if b then "true" else "false"
    case EmptyObj => "[object Object]"
    case EmptyArr => ""
  }

  predicate IsDigits(s: string) {
    s != [] && forall i :: 0 <= i < |s| ==> '0' <= s[i] <= '9'
  }

  /** The value of a string of decimal digits. */
  function DigitsValue(s: string): nat
    requires forall i :: 0 <= i < |s| ==> '0' <= s[i] <= '9'
  {
    if s == [] then 0 else 10 * DigitsValue(s[..|s| - 1]) + (s[|s| - 1] as int - '0' as int)
  }

  /** Unary plus `+v`; strings other than `''` and plain decimal digits give NaN. */
  function ToNumber(v: JsVal): (r: JsVal)
    ensures r.Num? || r.NaN?
  {
    match v
    case Null => Num(0.0)
    case Undefined => NaN
    case NaN => NaN
    case Str(s) =>
      if s == "" then Num(0.0)
      else if IsDigits(s) then Num(DigitsValue(s) as real)
      else NaN
    case Num(x) => Num(x)
    case Bool(b) => Num(if b then 1.0 else 0.0)
    case EmptyObj => NaN
    case EmptyArr => Num(0.0)
  }

  /** The sentinel pool of the string generator, in source order. */
  const StringSentinels: seq<JsVal> :=
    [Null, Undefined, Str("null"), Str("undefined"), EmptyObj, EmptyArr, Str("")]

  /** The nullable pool of the range generator. */
  const RangeNullables: seq<JsVal> := [Null, Undefined, NaN]

  /** The nullable pool of the boolean generator. */
  const BooleanNullables: seq<JsVal> := [Null, Undefined, EmptyArr]
}

=== FILE: LegacyStringDefinition.dfy ===
/**
 * The earlier string definition (src/QuantiumTester/definitions/string-definition.ts):
 * a fixed length, no cache, no sentinel injection; each call draws afresh.
 */
module LegacyStringDefinition {
  import opened Wrappers
  import opened JsValues
  import opened Masks
  import Chance

  class StringDefinition {
    /** The definition codes, or the literal pool in custom mode; `None` stands for null/undefined. */
    const definitions: Option<seq<string>>
    const length: int
    const custom: bool

    /** Stores the arguments. */
    constructor (defs: Option<seq<string>>, length: int, custom: bool := false)
      ensures definitions == defs && this.length == length && this.custom == custom
    {
      definitions := defs;
      this.length := length;
      this.custom := custom;
    }

    /**
     * `randomString`: throws without definitions; in custom mode picks one
     * pool literal (the provider throws on an empty pool); otherwise draws
     * `max(length, 0)` characters from the mask. No field changes.
     */
    method RandomString() returns (r: Result<string, Error>)
      ensures definitions.None? ==> r == Err(StringDefError)
      ensures definitions.Some? && custom ==>
        (|definitions.value| == 0 ==> r == Err(RangeError))
        && (|definitions.value| > 0 ==> r.Ok? && r.value in definitions.value)
      ensures definitions.Some? && !custom ==>
        r.Ok? && DrawnFrom(Mask(definitions.value), Draws(length), r.value)
    {
      if definitions.None? {
        return Err(StringDefError);
      }
      var defs := definitions.value;
      if custom {
        r := PickFromPool(defs);
        return;
      }
      var mask := BuildMask(defs);
      var chars := DrawChars(mask, length);
      r := Ok(chars);
    }
  }
}

=== FILE: Masks.dfy ===
/**
 * Character masks and character drawing shared by the three versions of
 * `randomString` / `generate`: the definition codes, the four character
 * groups, the mask built from the requested groups, and the loop that
 * appends one drawn mask character per unit of length.
 */
module Masks {
  import opened Wrappers
  import opened JsValues
  import Chance

  // Codes of the `StringDefinition` enum of src/QuantiumTester/QuantiumTester.ts,
  // taken also as the class codes of `StringDefinitionValue`, which is not part of this model.
  const LowerCode: string := "a"
  const UpperCode: string := "A"
  const NumericCode: string := "#"
  const SpecialCode: string := "!"
  // `StringDefinitionValue.ALL` and `StringDefinitionValue.NOT_EMPTY` belong to a
  // later enum whose codes are not part of this model; these stand-ins only
  // need to differ from each other and from the four codes above.
  const AllCode: string := "ALL"
  const NotEmptyCode: string := "NOT_EMPTY"

  const Lower: string := "abcdefghijklmnopqrstuvwxyz"
  const Upper: string := "ABCDEFGHIJKLMNOPQRSTUVWXYZ"
  const Digits: string := "0123456789"
  const Special: string := "~`!@#$%^&*()_+-={}[]:\";'<>?,./|\\"

  /** The mask of the `ALL` marker: every group, in order. */
  const FullMask: string := Lower + Upper + Digits + Special

  /** The ordered concatenation of exactly the requested groups. */
  function ClassMask(defs: seq<string>): string {
    (if LowerCode in defs then Lower else "")
    + (if UpperCode in defs then Upper else "")
    + (if NumericCode in defs then Digits else "")
    + (if SpecialCode in defs then Special else "")
  }

  /** The mask of the generator versions that know the `ALL` marker. */
  function Mask(defs: seq<string>): string {
    if AllCode in defs then FullMask else ClassMask(defs)
  }

  /** The six definition codes are pairwise distinct. */
  lemma CodesDistinct()
    ensures forall i, j :: 0 <= i < j < 6 ==>
      [LowerCode, UpperCode, NumericCode, SpecialCode, AllCode, NotEmptyCode][i]
      != [LowerCode, UpperCode, NumericCode, SpecialCode, AllCode, NotEmptyCode][j]
  {
  }

  /** A character is in the class mask iff one of the requested groups holds it. */
  lemma ClassMaskMembership(defs: seq<string>, c: char)
    ensures c in ClassMask(defs) <==>
      (LowerCode in defs && c in Lower) || (UpperCode in defs && c in Upper)
      || (NumericCode in defs && c in Digits) || (SpecialCode in defs && c in Special)
  {
  }

  /** The class mask is as long as the requested groups together. */
  lemma ClassMaskLength(defs: seq<string>)
    ensures |ClassMask(defs)| ==
      (if LowerCode in defs then 26 else 0) + (if UpperCode in defs then 26 else 0)
      + (if NumericCode in defs then 10 else 0) + (if SpecialCode in defs then 32 else 0)
  {
  }

  /** `ALL` gives all 94 characters whatever else is requested; otherwise the class mask. */
  lemma MaskOfAll(defs: seq<string>)
    ensures AllCode in defs ==> Mask(defs) == FullMask && |Mask(defs)| == 94
    ensures AllCode !in defs ==> Mask(defs) == ClassMask(defs)
  {
  }

  /** The mask is empty exactly when no group (and no `ALL`) is requested. */
  lemma MaskEmptyIff(defs: seq<string>)
    ensures Mask(defs) == "" <==>
      AllCode !in defs && LowerCode !in defs && UpperCode !in defs
      && NumericCode !in defs && SpecialCode !in defs
  {
    ClassMaskLength(defs);
  }

  /** Each group lies in its own character range; the special group avoids letters and digits. */
  lemma GroupRanges()
    ensures forall i :: 0 <= i < |Lower| ==> 'a' <= Lower[i] <= 'z'
    ensures forall i :: 0 <= i < |Upper| ==> 'A' <= Upper[i] <= 'Z'
    ensures forall i :: 0 <= i < |Digits| ==> '0' <= Digits[i] <= '9'
    ensures forall i :: 0 <= i < |Special| ==>
      !('a' <= Special[i] <= 'z') && !('A' <= Special[i] <= 'Z') && !('0' <= Special[i] <= '9')
  {
  }

  /** The four groups are pairwise disjoint, so a requested group never repeats another's characters. */
  lemma GroupsDisjoint(c: char)
    ensures c in Lower ==> c !in Upper && c !in Digits && c !in Special
    ensures c in Upper ==> c !in Digits && c !in Special
    ensures c in Digits ==> c !in Special
  {
    GroupRanges();
  }

  /**
   * Builds the mask of the version without `ALL` (src/QuantiumTester/QuantiumTester.ts)
   * by appending each requested group in turn.
   */
  method BuildClassMask(defs: seq<string>) returns (mask: string)
    ensures mask == ClassMask(defs)
  {
    ghost var lower := if LowerCode in defs then Lower else "";
    ghost var upper := if UpperCode in defs then Upper else "";
    ghost var digits := if NumericCode in defs then Digits else "";
    ghost var special := if SpecialCode in defs then Special else "";
    mask := "";
    if LowerCode in defs {
      mask := mask + Lower;
    }
    assert mask == lower;
    if UpperCode in defs {
      mask := mask + Upper;
    }
    assert mask == lower + upper;
    if NumericCode in defs {
      mask := mask + Digits;
    }
    assert mask == lower + upper + digits;
    if SpecialCode in defs {
      mask := mask + Special;
    }
    assert mask == lower + upper + digits + special;
  }

  /** Builds the mask of the versions that know `ALL`. */
  method BuildMask(defs: seq<string>) returns (mask: string)
    ensures mask == Mask(defs)
  {
    if AllCode !in defs {
      mask := BuildClassMask(defs);
    } else {
      mask := "";
      mask := mask + Lower;
      assert mask == Lower;
      mask := mask + Upper;
      mask := mask + Digits;
      mask := mask + Special;
      assert mask == FullMask;
    }
  }

  /** `s` repeated n times. */
  function Repeat(s: string, n: nat): (r: string)
    ensures |r| == n * |s|
  {
    if n == 0 then "" else Repeat(s, n - 1) + s
  }

  /**
   * What `result += mask[k]` appends: the character at k, or the text
   * "undefined" when k is not a position of the mask.
   */
  function Pick(mask: string, k: nat): string {
    if k < |mask| then [mask[k]] else "undefined"
  }

  /**
   * The characters n draws can append: n mask characters when the mask is
   * non-empty; n copies of "undefined" when it is empty.
   */
  predicate DrawnFrom(mask: string, n: nat, chars: string) {
    if |mask| > 0 then
      |chars| == n && forall i :: 0 <= i < |chars| ==> chars[i] in mask
    else
      chars == Repeat("undefined", n)
  }

  /** The number of characters a count of `len` draws: `max(len, 0)`. */
  function Draws(len: int): nat {
    if len > 0 then len else 0
  }

  /**
   * The counting loop `for (i = len; i > 0; i -= 1) result += mask[...]`,
   * returning what it appends.
   */
  method DrawChars(mask: string, len: int) returns (chars: string)
    ensures DrawnFrom(mask, Draws(len), chars)
  {
    chars := "";
    var i := len;
    while i > 0
      invariant len <= 0 ==> i == len && chars == ""
      invariant len > 0 ==> 0 <= i <= len && DrawnFrom(mask, len - i, chars)
    {
      var k := Chance.MaskIndex(|mask|);
      chars := chars + Pick(mask, k);
      i := i - 1;
    }
  }

  /** A non-empty mask yields exactly `max(len, 0)` characters, all from the mask. */
  lemma DrawnLength(mask: string, n: nat, chars: string)
    requires DrawnFrom(mask, n, chars)
    ensures |mask| > 0 ==> |chars| == n
    ensures |mask| == 0 ==> |chars| == 9 * n
  {
  }

  /**
   * As the provider behaves, the index can equal the mask's length, and the
   * draw then appends "undefined", whose letters need not be in the mask: with
   * only upper-case letters requested, 'u' is not in the mask.
   */
  lemma EdgeIndexEscapesMask()
    ensures Pick(Upper, |Upper|) == "undefined"
    ensures exists i :: 0 <= i < |Pick(Upper, |Upper|)| && Pick(Upper, |Upper|)[i] !in Upper
  {
    assert Pick(Upper, |Upper|)[0] == 'u';
    assert 'u' !in Upper;
  }

  /** Custom mode: `this._definitions[chance.integer({min: 0, max: length - 1})]`. */
  method PickFromPool(pool: seq<string>) returns (r: Result<string, Error>)
    ensures |pool| == 0 ==> r == Err(RangeError)
    ensures |pool| > 0 ==> r.Ok? && r.value in pool
  {
    var i := Chance.Integer(0, |pool| - 1);
    if i.Err? {
      return Err(i.error);
    }
    r := Ok(pool[i.value]);
  }
}

=== FILE: PreparedFunction.dfy ===
/**
 * A function prepared for an assertion (src/QuantiumTester/definitions/prepared-function.ts):
 * it is called either with fixed props or with named fixture values, never both.
 */
module PreparedFunctions {
  import opened Wrappers
  import opened JsValues

  const BothMessage: string := "Cannot declare both props and inner props"
  const PropsSetMessage: string := "Props are set please delete them before setting with inner props"
  const InnerPropsSetMessage: string := "Inner props are set please delete or clear them before setting props"

  class PreparedFunction {
    /** The prepared callback, as a function from its argument list to its result. */
    const func: seq<JsVal> -> JsVal
    /** `None` stands for null/undefined; any list, the empty one included, is truthy. */
    var withInnerProps: Option<seq<string>>
    /** `undefined` when not given. */
    var props: JsVal

    /** Never both a truthy `props` and an inner-props list. */
    predicate Valid()
      reads this
    {
      !(Truthy(props) && withInnerProps.Some?)
    }

    constructor (func: seq<JsVal> -> JsVal, withInnerProps: Option<seq<string>>, props: JsVal)
      requires !(Truthy(props) && withInnerProps.Some?)
      ensures this.func == func && this.withInnerProps == withInnerProps && this.props == props
      ensures Valid()
    {
      this.func := func;
      this.withInnerProps := withInnerProps;
      this.props := props;
    }

    /** `shouldExecuteWithInnerProps()`: `!!withInnerProps`. */
    function ShouldExecuteWithInnerProps(): bool
      reads this
    {
      withInnerProps.Some?
    }

    /** `shouldExecuteWithOwnProps()`: `!!props`. */
    function ShouldExecuteWithOwnProps(): bool
      reads this
    {
      Truthy(props)
    }

    /** `executeWith(...args)`: the callback applied to exactly the given arguments. */
    function ExecuteWith(args: seq<JsVal>): JsVal {
      func(args)
    }

    /** The `withInnerProps` setter: refused while `props` is truthy. */
    method SetWithInnerProps(value: Option<seq<string>>) returns (r: Result<(), Error>)
      modifies this`withInnerProps
      ensures Truthy(props) ==> r == Err(PropsError(PropsSetMessage)) && withInnerProps == old(withInnerProps)
      ensures !Truthy(props) ==> r == Ok(()) && withInnerProps == value
      ensures old(Valid()) ==> Valid()
    {
      if Truthy(props) {
        return Err(PropsError(PropsSetMessage));
      }
      withInnerProps := value;
      r := Ok(());
    }

    /** The `props` setter: refused while an inner-props list is set. */
    method SetProps(value: JsVal) returns (r: Result<(), Error>)
      modifies this`props
      ensures withInnerProps.Some? ==> r == Err(PropsError(InnerPropsSetMessage)) && props == old(props)
      ensures withInnerProps.None? ==> r == Ok(()) && props == value
      ensures old(Valid()) ==> Valid()
    {
      if withInnerProps.Some? {
        return Err(PropsError(InnerPropsSetMessage));
      }
      props := value;
      r := Ok(());
    }
  }

  /** `new PreparedFunction(func, withInnerProps, props)`: a PropsError iff both are truthy. */
  method NewPreparedFunction(func: seq<JsVal> -> JsVal, withInnerProps: Option<seq<string>>, props: JsVal)
    returns (r: Result<PreparedFunction, Error>)
    ensures r.Err? <==> Truthy(props) && withInnerProps.Some?
    ensures r.Err? ==> r.error == PropsError(BothMessage)
    ensures r.Ok? ==>
      && fresh(r.value) && r.value.Valid() && r.value.func == func
      && r.value.withInnerProps == withInnerProps && r.value.props == props
  {
    if Truthy(props) && withInnerProps.Some? {
      return Err(PropsError(BothMessage));
    }
    var p := new PreparedFunction(func, withInnerProps, props);
    r := Ok(p);
  }

  /** A valid prepared function never asks for both ways of being called. */
  lemma ExclusiveModes(p: PreparedFunction)
    requires p.Valid()
    ensures !(p.ShouldExecuteWithInnerProps() && p.ShouldExecuteWithOwnProps())
  {
  }

  /**
   * Any sequence of setter calls keeps the invariant; a client that sets one
   * mode and then tries the other is refused the second time.
   */
  method SetInnerPropsThenProps(p: PreparedFunction, names: seq<string>, value: JsVal)
    returns (first: Result<(), Error>, second: Result<(), Error>)
    requires p.Valid() && !Truthy(p.props)
    modifies p
    ensures first.Ok? && p.withInnerProps == Some(names)
    ensures second == Err(PropsError(InnerPropsSetMessage)) && p.props == old(p.props)
    ensures p.Valid()
  {
    first := p.SetWithInnerProps(Some(names));
    second := p.SetProps(value);
  }
}

=== FILE: QuantiumTester.dfy ===
/**
 * The early session class (src/QuantiumTester/QuantiumTester.ts), reduced to
 * its private `randomString` helper; its never-initialised property bag and
 * `setProperty` are not part of this model. This version
 * knows the four character groups and no `ALL` marker, and draws with
 * `Math.random()`, whose values lie in `[0, 1)`.
 */
module QuantiumTester {
  import opened Masks

  class QuantiumTesting {
    /**
     * `randomString(length, chars)`: `max(length, 0)` characters, each from
     * the ordered concatenation of the requested groups; with no group
     * requested each draw appends "undefined". No field changes.
     */
    method RandomString(length: int, chars: seq<string>) returns (r: string)
      ensures DrawnFrom(ClassMask(chars), Draws(length), r)
      ensures |ClassMask(chars)| > 0 ==> |r| == Draws(length)
      ensures forall i :: 0 <= i < |r| && |ClassMask(chars)| > 0 ==> r[i] in ClassMask(chars)
    {
      var mask := BuildClassMask(chars);
      r := DrawChars(mask, length);
    }
  }
}

=== FILE: RangeGenerator.dfy ===
/**
 * The numeric range generator (src/QuantiumTester/definitions/generators/range.ts):
 * bounds checked at construction, a truthiness-guarded cache, and a 5 % chance
 * of a nullable value when nullables are allowed.
 */
module RangeGenerator {
  import opened Wrappers
  import opened JsValues
  import Chance

  /** A value the generator may produce: in range (integral in integer mode) or a nullable. */
  predicate InRange(v: JsVal, from: int, to: int, asInteger: bool) {
    v.Num? && from as real <= v.x <= to as real && (asInteger ==> v.x == v.x.Floor as real)
  }

  /** A real in the closed interval `[from, to]`. */
  predicate Between(x: real, from: int, to: int) {
    from as real <= x <= to as real
  }

  class QRange {
    /** The cache; `undefined` until the first draw. Public, so callers may overwrite it. */
    var generatedValue: JsVal
    const from: int
    const to: int
    const asInteger: bool
    const allowNullable: bool

    /** The constructor's guard: the bounds are ordered (they never change). */
    predicate Ordered() {
      from <= to
    }

    /** The cache holds a value this generator could have produced. */
    predicate Valid()
      reads this
    {
      generatedValue in RangeNullables || InRange(generatedValue, from, to, asInteger)
    }

    constructor (from: int, to: int, asInteger: bool := false, allowNullable: bool := false)
      requires from <= to
      ensures this.from == from && this.to == to
      ensures this.asInteger == asInteger && this.allowNullable == allowNullable
      ensures generatedValue == Undefined && Ordered() && Valid()
    {
      this.from := from;
      this.to := to;
      this.asInteger := asInteger;
      this.allowNullable := allowNullable;
      generatedValue := Undefined;
    }

    /**
     * `generate(regenerateIfExists)`. A truthy cache is returned (as a number)
     * unless regeneration is asked for; a falsy one (0, null, undefined, NaN)
     * counts as absent. A draw caches what it returns.
     */
    method Generate(regenerate: bool := false) returns (r: JsVal)
      requires Ordered()
      modifies this`generatedValue
      ensures !regenerate && Truthy(old(generatedValue)) ==>
        r == ToNumber(old(generatedValue)) && generatedValue == old(generatedValue)
      ensures regenerate || !Truthy(old(generatedValue)) ==>
        generatedValue == r
        && (r in RangeNullables ==> allowNullable)
        && (r !in RangeNullables ==> InRange(r, from, to, asInteger))
      ensures old(Valid()) ==> Valid()
      ensures old(Valid()) ==> r in RangeNullables || InRange(r, from, to, asInteger)
    {
      if !regenerate && Truthy(generatedValue) {
        return ToNumber(generatedValue);
      }
      if allowNullable {
        var d := Chance.Percent();
        if d <= 5 {
          r := Chance.PickOne(RangeNullables);
          generatedValue := r;
          return;
        }
      }
      if asInteger {
        var i := Chance.Integer(from, to);
        r := Num(i.value as real);
      } else {
        // `chance.floating`: a real in [from, to]; its four-decimal rounding is not modelled.
        assert Between(from as real, from, to);
        var drawn: real :| Between(drawn, from, to);
        assert Between(drawn, from, to);
        r := Num(drawn);
      }
      generatedValue := r;
    }
  }

  /** `new QRange(from, to, asInteger, allowNullable)`: a RangeError iff `from > to`. */
  method NewQRange(from: int, to: int, asInteger: bool, allowNullable: bool) returns (r: Result<QRange, Error>)
    ensures r.Err? <==> from > to
    ensures r.Err? ==> r.error == RangeError
    ensures r.Ok? ==>
      && fresh(r.value) && r.value.Ordered() && r.value.Valid() && r.value.generatedValue == Undefined
      && r.value.from == from && r.value.to == to
      && r.value.asInteger == asInteger && r.value.allowNullable == allowNullable
  {
    if from > to {
      return Err(RangeError);
    }
    var q := new QRange(from, to, asInteger, allowNullable);
    r := Ok(q);
  }

  /** In integer mode a single-point range can only produce its point (or a nullable). */
  lemma SinglePoint(v: JsVal, p: int)
    requires InRange(v, p, p, true)
    ensures v == Num(p as real)
  {
  }

  /** A cache the generator produced is returned unchanged by `+cached`, so it stays in range. */
  lemma CachedStaysInRange(v: JsVal, from: int, to: int, asInteger: bool)
    requires v in RangeNullables || InRange(v, from, to, asInteger)
    requires Truthy(v)
    ensures ToNumber(v) == v && InRange(v, from, to, asInteger)
  {
  }

  /**
   * Two calls without regeneration: the second returns the first's value
   * whenever that value is truthy; a drawn 0 or a nullable is drawn again.
   */
  method GenerateTwice(q: QRange) returns (a: JsVal, b: JsVal)
    requires q.Ordered() && q.Valid()
    modifies q
    ensures Truthy(a) ==> b == a
    ensures a in RangeNullables || InRange(a, q.from, q.to, q.asInteger)
    ensures b in RangeNullables || InRange(b, q.from, q.to, q.asInteger)
  {
    a := q.Generate(false);
    b := q.Generate(false);
  }
}

=== FILE: Stages.dfy ===
/**
 * Stages (src/QuantiumTester/definitions/stage/): a named action with the
 * fixture names whose freshly generated values it receives, and two run-once
 * wrappers, `SingleStage` and `StageSingle`, guarded by a `hasRun` flag.
 *
 * The action is code this model cannot see: it is represented by the list of
 * argument lists it has been called with, and by a flag saying whether the
 * call throws. Awaiting in the async variants is not modelled.
 */
module Stages {
  import opened Wrappers
  import opened JsValues
  import opened Fixtures
  import opened GeneratorUtils

  /** The names of `props` that are own keys of the store, in order. */
  function KeptNames(props: seq<string>, store: Store): (kept: seq<string>)
    ensures |kept| <= |props|
  {
    if props == [] then []
    else (if props[0] in store then [props[0]] else []) + KeptNames(props[1..], store)
  }

  /** Kept names are exactly the listed names present in the store, and they keep their order. */
  lemma {:induction false} KeptNamesSelect(props: seq<string>, store: Store)
    ensures forall n :: n in KeptNames(props, store) <==> n in props && n in store
    ensures (forall n :: n in props ==> n in store) ==> KeptNames(props, store) == props
    ensures (forall n :: n in props ==> n !in store) ==> KeptNames(props, store) == []
  {
    if props != [] {
      KeptNamesSelect(props[1..], store);
      assert props == [props[0]] + props[1..];
    }
  }

  /** Names kept from a concatenation are those kept from each part. */
  lemma {:induction false} KeptNamesAppend(a: seq<string>, b: seq<string>, store: Store)
    ensures KeptNames(a + b, store) == KeptNames(a, store) + KeptNames(b, store)
  {
    if a == [] {
      assert a + b == b;
    } else {
      var ab := a + b;
      var head := if a[0] in store then [a[0]] else [];
      assert ab[0] == a[0];
      assert ab[1..] == a[1..] + b;
      assert KeptNames(ab, store) == head + KeptNames(a[1..] + b, store);
      KeptNamesAppend(a[1..], b, store);
      assert KeptNames(a, store) == head + KeptNames(a[1..], store);
    }
  }

  /** The resolution `getStageProps` pushes for one name, with regeneration, as far as the stage needs it. */
  method ResolveArgument(name: string, store: Store) returns (r: Result<Resolved, Error>)
    requires StoreOrdered(store)
    modifies NameObjects(name, store)
    ensures r.Ok? ==> Resolves(name, store, r.value)
    ensures r.Err? ==> MayFail(name, store)
    // With regeneration: a string entry's fresh result, and members regenerated rather than reused.
    ensures r.Ok? && '.' !in name && name in store && store[name].GenSlot? && store[name].g.StringGen? ==>
      store[name].g.s.Returned(r.value.v, true)
    ensures r.Ok? && '.' !in name && name in store && store[name].Group? ==>
      var m := store[name].members;
      && r.value.Object?
      && forall k :: k in MaterialKeys(m) ==> MemberValue(m, k, true, r.value.fields[k], old(Cache(m[k].g)))
    ensures r.Ok? && |Split(name, '.')| == 2 ==>
      var c := Split(name, '.')[0];
      var f := Split(name, '.')[1];
      c in store && store[c].Group? && f in MaterialKeys(store[c].members) ==>
        MemberValue(store[c].members, f, true, r.value.v, old(Cache(store[c].members[f].g)))
  {
    r := GetGeneratorAsValue(name, true, store);
  }

  /** The generators that resolving the kept names of `props` can call. */
  function KeptObjects(props: seq<string>, store: Store): set<object> {
    set n, o | n in KeptNames(props, store) && o in NameObjects(n, store) :: o
  }

  /** A listed name present in the store is kept, so resolving it stays within the kept names' generators. */
  lemma KeptObjectsCover(props: seq<string>, store: Store, name: string)
    requires name in props && name in store
    ensures NameObjects(name, store) <= KeptObjects(props, store)
  {
    KeptNamesSelect(props, store);
    assert name in KeptNames(props, store);
  }

  /** `ResolveArgument` for a kept name, within the frame of all the kept names. */
  method ResolveKept(props: seq<string>, store: Store, name: string) returns (r: Result<Resolved, Error>)
    requires StoreOrdered(store) && name in props && name in store
    modifies KeptObjects(props, store)
    ensures r.Ok? ==> Resolves(name, store, r.value)
    ensures r.Err? ==> MayFail(name, store)
  {
    KeptObjectsCover(props, store, name);
    r := ResolveArgument(name, store);
  }

  /** Each argument is a successful resolution of the kept name at its position. */
  predicate ArgumentsFor(names: seq<string>, store: Store, args: seq<Resolved>) {
    |args| == |names| && forall i :: 0 <= i < |args| ==> Resolves(names[i], store, args[i])
  }

  /** The loop of `getStageProps` over the list, once a store is bound. */
  method CollectArguments(props: seq<string>, store: Store) returns (r: Result<seq<Resolved>, Error>)
    requires StoreOrdered(store)
    modifies KeptObjects(props, store)
    ensures r.Ok? ==> ArgumentsFor(KeptNames(props, store), store, r.value)
    ensures r.Err? ==> exists n :: n in KeptNames(props, store) && MayFail(n, store)
  {
    var args: seq<Resolved> := [];
    var i := 0;
    while i < |props|
      invariant 0 <= i <= |props|
      invariant ArgumentsFor(KeptNames(props[..i], store), store, args)
    {
      var name := props[i];
      assert props[..i + 1] == props[..i] + [name];
      KeptNamesAppend(props[..i], [name], store);
      if name in store {
        var v := ResolveKept(props, store, name);
        if v.Err? {
          KeptNamesSelect(props, store);
          return Err(v.error);
        }
        args := args + [v.value];
      }
      i := i + 1;
    }
    assert props[..|props|] == props;
    r := Ok(args);
  }

  class Stage {
    const stageName: string
    /** `None` stands for a null or undefined list; the default is the empty list. */
    const withInnerProps: Option<seq<string>>
    const stageOrder: int
    /** The bound fixture store (`_object`); unset until the session binds it. */
    var boundStore: Option<Store>
    /** The argument lists the action has been called with, oldest first. */
    var actionCalls: seq<seq<Resolved>>

    /** Stores the name, the list and the order; no store is bound and no call is recorded. */
    constructor (stageName: string, withInnerProps: Option<seq<string>> := Some([]), stageOrder: int := 0)
      ensures this.stageName == stageName && this.withInnerProps == withInnerProps
      ensures this.stageOrder == stageOrder
      ensures boundStore == None && actionCalls == []
    {
      this.stageName := stageName;
      this.withInnerProps := withInnerProps;
      this.stageOrder := stageOrder;
      boundStore := None;
      actionCalls := [];
    }

    /** The generators a run may call: only those of the kept names' entries. */
    function Footprint(): set<object>
      reads this
    {
      if boundStore.Some? && withInnerProps.Some? then KeptObjects(withInnerProps.value, boundStore.value) else {}
    }

    /** The `object` setter: binds the store and changes nothing else. */
    method SetObject(store: Store)
      modifies this`boundStore
      ensures boundStore == Some(store)
    {
      boundStore := Some(store);
    }

    /** Every kept name resolves without throwing (vacuous without a list or with an empty one). */
    predicate ArgumentsResolve()
      reads this
    {
      || withInnerProps.None? || withInnerProps.value == []
      || (boundStore.Some?
          && forall n :: n in KeptNames(withInnerProps.value, boundStore.value) ==> !MayFail(n, boundStore.value))
    }

    /**
     * The outcome of one run against the calls recorded `before` it. The
     * action is called at most once, and when it is the run ends as the
     * action does. Without a list, or with the default empty one, it is
     * called with no arguments. A non-empty list with no store bound throws
     * before the call. With a store, the action receives the kept names'
     * resolutions, and it is skipped only when one of them can throw.
     */
    predicate Ran(before: seq<seq<Resolved>>, actionThrows: bool, r: Result<seq<Resolved>, Error>)
      reads this
    {
      && (actionCalls == before || (|actionCalls| == |before| + 1 && actionCalls[..|before|] == before))
      && (|actionCalls| == |before| + 1 ==>
            r == (if actionThrows then Err(ActionError) else Ok(actionCalls[|before|])))
      && (withInnerProps.None? || withInnerProps == Some([]) ==> actionCalls == before + [[]])
      && (withInnerProps.Some? && withInnerProps.value != [] && boundStore.None? ==>
            r == Err(TypeError) && actionCalls == before)
      && (withInnerProps.Some? && boundStore.Some? ==>
            var kept := KeptNames(withInnerProps.value, boundStore.value);
            && (|actionCalls| == |before| + 1 ==> ArgumentsFor(kept, boundStore.value, actionCalls[|before|]))
            && (actionCalls == before ==> r.Err? && exists n :: n in kept && MayFail(n, boundStore.value)))
      && (ArgumentsResolve() ==> |actionCalls| == |before| + 1)
    }

    /**
     * `getStageProps()`: for each listed name, in order, that is an own key of
     * the bound store, the name resolved with regeneration; names missing from
     * the store are skipped. With no store bound, the first name throws.
     */
    method GetStageProps() returns (r: Result<seq<Resolved>, Error>)
      requires boundStore.Some? ==> StoreOrdered(boundStore.value)
      modifies Footprint()
      ensures withInnerProps.None? ==> r == Ok([])
      ensures withInnerProps.Some? && withInnerProps.value == [] ==> r == Ok([])
      ensures withInnerProps.Some? && withInnerProps.value != [] && boundStore.None? ==> r == Err(TypeError)
      ensures withInnerProps.Some? && boundStore.Some? && r.Ok? ==>
        ArgumentsFor(KeptNames(withInnerProps.value, boundStore.value), boundStore.value, r.value)
      ensures withInnerProps.Some? && boundStore.Some? && r.Err? ==>
        exists n :: n in KeptNames(withInnerProps.value, boundStore.value) && MayFail(n, boundStore.value)
    {
      if withInnerProps.None? {
        return Ok([]);
      }
      var props := withInnerProps.value;
      if props == [] {
        return Ok([]);
      }
      if boundStore.None? {
        return Err(TypeError);
      }
      r := CollectArguments(props, boundStore.value);
    }

    /**
     * `runStage()`: with a list of inner props (an empty one included) the
     * action receives the resolved arguments; with none it is called with no
     * arguments. A failed resolution throws before the action is called; an
     * action that throws has still been called.
     */
    method RunStage(actionThrows: bool) returns (r: Result<seq<Resolved>, Error>)
      requires boundStore.Some? ==> StoreOrdered(boundStore.value)
      modifies this`actionCalls, Footprint()
      ensures boundStore == old(boundStore)
      ensures Ran(old(actionCalls), actionThrows, r)
    {
      var args: seq<Resolved> := [];
      if withInnerProps.Some? {
        var props := GetStageProps();
        if props.Err? {
          return Err(props.error);
        }
        args := props.value;
      }
      actionCalls := actionCalls + [args];
      r := if actionThrows then Err(ActionError) else Ok(args);
    }

    /** `runStageAsync()`: the same arguments and outcome as `runStage`; awaiting is not modelled. */
    method RunStageAsync(actionThrows: bool) returns (r: Result<seq<Resolved>, Error>)
      requires boundStore.Some? ==> StoreOrdered(boundStore.value)
      modifies this`actionCalls, Footprint()
      ensures boundStore == old(boundStore)
      ensures Ran(old(actionCalls), actionThrows, r)
    {
      r := RunStage(actionThrows);
    }
  }

  /**
   * `SingleStage` (src/QuantiumTester/definitions/stage/SingleStage.ts): runs its stage at most once while `hasRun` is set.
   * The flag starts unset (falsy) and is set before the action runs, so an
   * action that throws still counts as run; sync and async runs share it.
   */
  class SingleStage {
    const stage: Stage
    var hasRun: bool

    constructor (stageName: string, withInnerProps: Option<seq<string>> := Some([]), stageOrder: int := 0)
      ensures fresh(stage) && !hasRun
      ensures stage.stageName == stageName && stage.withInnerProps == withInnerProps
      ensures stage.stageOrder == stageOrder && stage.boundStore == None && stage.actionCalls == []
    {
      stage := new Stage(stageName, withInnerProps, stageOrder);
      hasRun := false;
    }

    /** `runStage()`: the stage's run on the first call, `None` (a no-op) afterwards. */
    method RunStage(actionThrows: bool) returns (r: Option<Result<seq<Resolved>, Error>>)
      requires stage.boundStore.Some? ==> StoreOrdered(stage.boundStore.value)
      modifies this`hasRun, stage`actionCalls, stage.Footprint()
      ensures hasRun && stage.boundStore == old(stage.boundStore)
      ensures old(hasRun) ==> r == None && stage.actionCalls == old(stage.actionCalls)
      ensures !old(hasRun) ==> r.Some? && stage.Ran(old(stage.actionCalls), actionThrows, r.value)
    {
      if !hasRun {
        hasRun := true;
        var res := stage.RunStage(actionThrows);
        return Some(res);
      }
      r := None;
    }

    /** `runStageAsync()`: the same guard and flag as `runStage`; awaiting is not modelled. */
    method RunStageAsync(actionThrows: bool) returns (r: Option<Result<seq<Resolved>, Error>>)
      requires stage.boundStore.Some? ==> StoreOrdered(stage.boundStore.value)
      modifies this`hasRun, stage`actionCalls, stage.Footprint()
      ensures hasRun && stage.boundStore == old(stage.boundStore)
      ensures old(hasRun) ==> r == None && stage.actionCalls == old(stage.actionCalls)
      ensures !old(hasRun) ==> r.Some? && stage.Ran(old(stage.actionCalls), actionThrows, r.value)
    {
      r := RunStage(actionThrows);
    }

    /** The `hasRun` setter; clearing it re-enables one more run. */
    method SetHasRun(value: bool)
      modifies this`hasRun
      ensures hasRun == value
    {
      hasRun := value;
    }
  }

  /**
   * Two runs of any kind call the action at most once, and the second is a
   * no-op; on a fresh wrapper whose arguments resolve, exactly once.
   */
  method SingleStageTwice(s: SingleStage, firstAsync: bool, actionThrows: bool)
    returns (first: Option<Result<seq<Resolved>, Error>>, second: Option<Result<seq<Resolved>, Error>>)
    requires s.stage.boundStore.Some? ==> StoreOrdered(s.stage.boundStore.value)
    modifies s, s.stage, s.stage.Footprint()
    ensures second == None && s.hasRun
    ensures old(s.hasRun) ==> first == None && s.stage.actionCalls == old(s.stage.actionCalls)
    ensures !old(s.hasRun) ==> first.Some? && s.stage.Ran(old(s.stage.actionCalls), actionThrows, first.value)
    ensures |s.stage.actionCalls| <= |old(s.stage.actionCalls)| + 1
    ensures !old(s.hasRun) && s.stage.ArgumentsResolve() ==> |s.stage.actionCalls| == |old(s.stage.actionCalls)| + 1
  {
    if firstAsync {
      first := s.RunStageAsync(actionThrows);
    } else {
      first := s.RunStage(actionThrows);
    }
    second := s.RunStage(actionThrows);
  }

  /**
   * `StageSingle` (src/QuantiumTester/definitions/stage/Stage.single.ts, a duplicate of SingleStage): runs its stage at most once while `hasRun` is set.
   * The flag starts unset (falsy) and is set before the action runs, so an
   * action that throws still counts as run; sync and async runs share it.
   */
  class StageSingle {
    const stage: Stage
    var hasRun: bool

    constructor (stageName: string, withInnerProps: Option<seq<string>> := Some([]), stageOrder: int := 0)
      ensures fresh(stage) && !hasRun
      ensures stage.stageName == stageName && stage.withInnerProps == withInnerProps
      ensures stage.stageOrder == stageOrder && stage.boundStore == None && stage.actionCalls == []
    {
      stage := new Stage(stageName, withInnerProps, stageOrder);
      hasRun := false;
    }

    /** `runStage()`: the stage's run on the first call, `None` (a no-op) afterwards. */
    method RunStage(actionThrows: bool) returns (r: Option<Result<seq<Resolved>, Error>>)
      requires stage.boundStore.Some? ==> StoreOrdered(stage.boundStore.value)
      modifies this`hasRun, stage`actionCalls, stage.Footprint()
      ensures hasRun && stage.boundStore == old(stage.boundStore)
      ensures old(hasRun) ==> r == None && stage.actionCalls == old(stage.actionCalls)
      ensures !old(hasRun) ==> r.Some? && stage.Ran(old(stage.actionCalls), actionThrows, r.value)
    {
      if !hasRun {
        hasRun := true;
        var res := stage.RunStage(actionThrows);
        return Some(res);
      }
      r := None;
    }

    /** `runStageAsync()`: the same guard and flag as `runStage`; awaiting is not modelled. */
    method RunStageAsync(actionThrows: bool) returns (r: Option<Result<seq<Resolved>, Error>>)
      requires stage.boundStore.Some? ==> StoreOrdered(stage.boundStore.value)
      modifies this`hasRun, stage`actionCalls, stage.Footprint()
      ensures hasRun && stage.boundStore == old(stage.boundStore)
      ensures old(hasRun) ==> r == None && stage.actionCalls == old(stage.actionCalls)
      ensures !old(hasRun) ==> r.Some? && stage.Ran(old(stage.actionCalls), actionThrows, r.value)
    {
      r := RunStage(actionThrows);
    }

    /** The `hasRun` setter; clearing it re-enables one more run. */
    method SetHasRun(value: bool)
      modifies this`hasRun
      ensures hasRun == value
    {
      hasRun := value;
    }
  }

  /**
   * Two runs of any kind call the action at most once, and the second is a
   * no-op; on a fresh wrapper whose arguments resolve, exactly once.
   */
  method StageSingleTwice(s: StageSingle, firstAsync: bool, actionThrows: bool)
    returns (first: Option<Result<seq<Resolved>, Error>>, second: Option<Result<seq<Resolved>, Error>>)
    requires s.stage.boundStore.Some? ==> StoreOrdered(s.stage.boundStore.value)
    modifies s, s.stage, s.stage.Footprint()
    ensures second == None && s.hasRun
    ensures old(s.hasRun) ==> first == None && s.stage.actionCalls == old(s.stage.actionCalls)
    ensures !old(s.hasRun) ==> first.Some? && s.stage.Ran(old(s.stage.actionCalls), actionThrows, first.value)
    ensures |s.stage.actionCalls| <= |old(s.stage.actionCalls)| + 1
    ensures !old(s.hasRun) && s.stage.ArgumentsResolve() ==> |s.stage.actionCalls| == |old(s.stage.actionCalls)| + 1
  {
    if firstAsync {
      first := s.RunStageAsync(actionThrows);
    } else {
      first := s.RunStage(actionThrows);
    }
    second := s.RunStage(actionThrows);
  }
}

=== FILE: StagingError.dfy ===
/**
 * Stage registry errors (src/QuantiumTester/errors/staging.error.ts): the
 * message chosen by an error code.
 */
module StagingErrors {

  /** The `StageError` enum's numeric members. */
  const StageNotFound: int := 0
  const StageExists: int := 1

  const ExistsMessage: string :=
    "This stage has already been defined, if you want to override it please define override as true"
  const NotFoundMessage: string := "Stage was not found! Please make sure this stage exists"
  const UndefinedMessage: string := "Undefined Stage Error occurred"

  /** The message `new StagingError(code)` carries. */
  function Message(code: int): (m: string)
    ensures m == ExistsMessage <==> code == StageExists
    ensures m == NotFoundMessage <==> code == StageNotFound
    ensures m == UndefinedMessage <==> code != StageExists && code != StageNotFound
  {
    if code == StageExists then ExistsMessage
    else if code == StageNotFound then NotFoundMessage
    else UndefinedMessage
  }

  /** Two codes share a message iff they are equal or both unknown. */
  lemma MessagesDistinguishCodes(a: int, b: int)
    ensures Message(a) == Message(b) <==>
      a == b || (a != StageExists && a != StageNotFound && b != StageExists && b != StageNotFound)
  {
  }
}

=== FILE: StringGenerator.dfy ===
/**
 * The cached string generator (src/QuantiumTester/definitions/generators/string-definition.ts):
 * a length that is fixed or drawn from a range, sentinel injection weighted
 * toward short lengths, a cache whose JavaScript truthiness decides whether it
 * is reused, and a custom mode that picks from a literal pool.
 */
module StringGenerator {
  import opened Wrappers
  import opened JsValues
  import opened Masks
  import Chance

  /** The `length` argument: a number, `null` (the default) or a `{from, to}` range. */
  datatype Length = Fixed(n: int) | NullLength | Span(from: int, to: int)

  /**
   * Resolves the length as the code does: `typeof null` is 'object', so a
   * null length takes the range branch and reading `null.from` throws a
   * TypeError; a range is drawn inclusively; a number is used as it is.
   */
  method DrawLength(length: Length) returns (r: Result<int, Error>)
    ensures length.NullLength? ==> r == Err(TypeError)
    ensures length.Fixed? ==> r == Ok(length.n)
    ensures length.Span? ==>
      (length.from > length.to ==> r == Err(RangeError))
      && (length.from <= length.to ==> r.Ok? && length.from <= r.value <= length.to)
  {
    match length
    case NullLength =>
      r := Err(TypeError);
    case Span(from, to) =>
      r := Chance.Integer(from, to);
    case Fixed(n) =>
      r := Ok(n);
  }

  /** The length resolves without throwing. */
  predicate LengthResolves(length: Length) {
    !length.NullLength? && !(length.Span? && length.from > length.to)
  }

  /**
   * The injection test `d <= (1 / len) * 100` in integer form: always for
   * length 0 (the threshold is Infinity), never for a negative length, and
   * `d * len <= 100` otherwise.
   */
  predicate InjectionFires(d: int, len: int) {
    len == 0 || (len > 0 && d * len <= 100)
  }

  /**
   * The integer form agrees with the source's real-valued test for every
   * non-zero length: `d <= (1 / len) * 100`.
   */
  lemma InjectionThreshold(d: int, len: int)
    requires 0 <= d && len != 0
    ensures InjectionFires(d, len) <==> (d as real) <= (1.0 / len as real) * 100.0
  {
    var t := (1.0 / len as real) * 100.0;
    assert t * (len as real) == 100.0;
    if len > 0 {
      if d * len <= 100 {
        assert (d as real) * (len as real) <= t * (len as real);
      } else {
        assert (d as real) * (len as real) > t * (len as real);
      }
    } else {
      assert t < 0.0;
    }
  }

  /** Draws `d` in `[0, 100]` and decides whether a sentinel is injected. */
  method DrawInjection(len: int) returns (d: int, fire: bool)
    ensures 0 <= d <= 100
    ensures fire == InjectionFires(d, len)
    ensures len == 0 ==> fire
    ensures len < 0 ==> !fire
    ensures fire && len > 100 ==> d == 0
  {
    d := Chance.Percent();
    fire := InjectionFires(d, len);
  }

  /**
   * The value `result` holds after the loop, for the characters `chars` the
   * loop drew from `mask`: with a non-empty mask, the starting value's text
   * followed by exactly `len` mask characters; with an empty mask every draw
   * appends "undefined", except that `null + undefined` and
   * `undefined + undefined` are numeric additions, so a null or undefined
   * start leaves NaN.
   */
  function Accumulate(start: NonNumber, mask: string, len: int, chars: string): (v: NonNumber)
    ensures len > 0 && |mask| > 0 && DrawnFrom(mask, Draws(len), chars) ==>
      v.Str? && |v.s| == |ToStr(start)| + len && v.s[..|ToStr(start)|] == ToStr(start)
      && forall i :: |ToStr(start)| <= i < |v.s| ==> v.s[i] in mask
    ensures len > 0 && |mask| == 0 && DrawnFrom(mask, Draws(len), chars) ==>
      (v.NaN? <==> start.Null? || start.Undefined?)
      && (v.Str? ==> v.s == ToStr(start) + Repeat("undefined", len))
  {
    if len <= 0 then start
    else if |mask| == 0 && (start.Null? || start.Undefined?) then NaN
    else Str(ToStr(start) + chars)
  }

  class StringDefinition {
    /**
     * The cache; a field that was never assigned reads as `undefined`. The
     * generator only ever stores text or a sentinel here, so a number
     * written into the public field from outside is not modelled.
     */
    var generatedValue: NonNumber
    /** The definition codes, or the literal pool in custom mode; `None` stands for null/undefined. */
    const definitions: Option<seq<string>>
    const length: Length
    const custom: bool

    /** Stores the arguments. */
    constructor (defs: Option<seq<string>>, length: Length := NullLength, custom: bool := false)
      ensures definitions == defs && this.length == length && this.custom == custom
      ensures generatedValue == Undefined
    {
      definitions := defs;
      this.length := length;
      this.custom := custom;
      generatedValue := Undefined;
    }

    /** `generate` can throw: no definitions, a null or reversed length, or an empty custom pool. */
    predicate CanFail() {
      definitions.None? || !LengthResolves(length) || (custom && |definitions.value| == 0)
    }

    /**
     * What `generate` returned, read against the cache it left: the cache as
     * text when it was reused, the cache itself after a draw, or a pool member
     * in custom mode.
     */
    predicate Returned(v: JsVal, regenerate: bool)
      reads this
    {
      || (!regenerate && Truthy(generatedValue) && v == Str(ToStr(generatedValue)))
      || (!custom && v == generatedValue)
      || (custom && definitions.Some? && v.Str? && v.s in definitions.value)
    }

    /**
     * `generate(regenerateIfExists)`. The ghost results expose the drawn
     * length, the injection draw, the injected sentinel (if any) and the
     * drawn characters.
     */
    method Generate(regenerate: bool := false)
      returns (r: Result<JsVal, Error>, ghost len: int, ghost d: int, ghost injected: Option<NonNumber>, ghost chars: string)
      modifies this`generatedValue
      // It throws only when it can, and otherwise returns what it cached or a pool member.
      ensures r.Err? ==> CanFail()
      ensures r.Ok? ==> Returned(r.value, regenerate)
      // Errors before anything is drawn leave the cache alone.
      ensures definitions.None? ==> r == Err(StringDefError) && generatedValue == old(generatedValue)
      ensures definitions.Some? && length.NullLength? ==> r == Err(TypeError) && generatedValue == old(generatedValue)
      ensures definitions.Some? && length.Span? && length.from > length.to ==>
        r == Err(RangeError) && generatedValue == old(generatedValue)
      // The effective length.
      ensures definitions.Some? && length.Fixed? ==> len == length.n
      ensures definitions.Some? && length.Span? && length.from <= length.to ==> length.from <= len <= length.to
      // Sentinel injection: only without NOT_EMPTY, exactly when the draw d passes the length's threshold.
      ensures 0 <= d <= 100
      ensures injected.Some? <==>
        definitions.Some? && NotEmptyCode !in definitions.value && LengthResolves(length) && InjectionFires(d, len)
      ensures injected.Some? ==> injected.value in StringSentinels
      // The cache check comes after injection: a truthy cache, injected or old, is returned as text.
      ensures definitions.Some? && LengthResolves(length) ==>
        var cache := if injected.Some? then injected.value else old(generatedValue);
        (!regenerate && Truthy(cache) ==> r == Ok(Str(ToStr(cache))) && generatedValue == cache)
        && (custom && (regenerate || !Truthy(cache)) ==>
              generatedValue == cache
              && (|definitions.value| == 0 ==> r == Err(RangeError))
              && (|definitions.value| > 0 ==> r.Ok? && r.value.Str? && r.value.s in definitions.value))
        && (!custom && (regenerate || !Truthy(cache)) ==>
              var start := if injected.Some? then injected.value else Str("");
              DrawnFrom(Mask(definitions.value), Draws(len), chars)
              && r == Ok(Accumulate(start, Mask(definitions.value), len, chars))
              && generatedValue == Accumulate(start, Mask(definitions.value), len, chars))
    {
      injected := None;
      chars := "";
      len := 0;
      d := 0;
      if definitions.None? {
        return Err(StringDefError), len, d, injected, chars;
      }
      var defs := definitions.value;
      var drawn := DrawLength(length);
      if drawn.Err? {
        return Err(drawn.error), len, d, injected, chars;
      }
      var n := drawn.value;
      len := n;

      var result: NonNumber := Str("");
      if NotEmptyCode !in defs {
        var draw, fire := DrawInjection(n);
        d := draw;
        if fire {
          var s := Chance.PickOne(StringSentinels);
          result := s;
          generatedValue := s;
          injected := Some(s);
        }
      }

      if !regenerate && Truthy(generatedValue) {
        return Ok(Str(ToStr(generatedValue))), len, d, injected, chars;
      }

      if custom {
        var picked := PickFromPool(defs);
        if picked.Err? {
          return Err(picked.error), len, d, injected, chars;
        }
        return Ok(Str(picked.value)), len, d, injected, chars;
      }

      var mask := BuildMask(defs);
      var text := DrawChars(mask, n);
      chars := text;
      var v := Accumulate(result, mask, n, text);
      generatedValue := v;
      r := Ok(v);
    }
  }

  /**
   * Without NOT_EMPTY, a generator whose length is 0 always injects a
   * sentinel, whatever the draw; no character is drawn, so the sentinel itself
   * is the value the loop leaves, and it is text unless it is null,
   * undefined, `{}` or `[]`.
   */
  lemma ZeroLengthKeepsSentinel(s: NonNumber, mask: string, chars: string)
    requires s in StringSentinels && DrawnFrom(mask, Draws(0), chars)
    ensures forall d :: InjectionFires(d, 0)
    ensures chars == "" && Accumulate(s, mask, 0, chars) == s
    ensures !Accumulate(s, mask, 0, chars).Str? <==> s in [Null, Undefined, EmptyObj, EmptyArr]
  {
  }
}

=== FILE: TestValidator.dfy ===
/**
 * Fluent validator configuration (src/QuantiumTester/test-validator/test-validator.ts).
 */
module TestValidators {
  import opened Wrappers

  /** The `TestValidatorActions` enum: exactly two members, numbered 0 and 1. */
  datatype TestValidatorAction = MatchExactly | IncludeValue

  function Ordinal(a: TestValidatorAction): nat {
    match a
    case MatchExactly => 0
    case IncludeValue => 1
  }

  /** The numbering is one-to-one and onto `{0, 1}`. */
  lemma OrdinalBijective(a: TestValidatorAction, b: TestValidatorAction, n: nat)
    ensures Ordinal(a) == Ordinal(b) ==> a == b
    ensures n < 2 ==> Ordinal(if n == 0 then MatchExactly else IncludeValue) == n
  {
  }

  class TestValidator {
    /** Each field is unset (`None`) until its setter runs. */
    var matchCase: Option<TestValidatorAction>
    var handleValidation: Option<bool>
    var validationAsStage: Option<string>

    constructor ()
      ensures matchCase == None && handleValidation == None && validationAsStage == None
    {
      matchCase := None;
      handleValidation := None;
      validationAsStage := None;
    }

    /**
     * `setHandleValidation(shouldHandle = true, stageValidation)`: stores both
     * (an undefined `shouldHandle` becomes true) and returns the same validator.
     */
    method SetHandleValidation(shouldHandle: Option<bool>, stageValidation: Option<string>) returns (self: TestValidator)
      modifies this`handleValidation, this`validationAsStage
      ensures self == this
      ensures handleValidation == Some(if shouldHandle.Some? then shouldHandle.value else true)
      ensures validationAsStage == stageValidation
    {
      handleValidation := Some(if shouldHandle.Some? then shouldHandle.value else true);
      validationAsStage := stageValidation;
      self := this;
    }

    /** `expectToMatchExact()`: selects MATCH_EXACTLY and returns the same validator. */
    method ExpectToMatchExact() returns (self: TestValidator)
      modifies this`matchCase
      ensures self == this && matchCase == Some(MatchExactly)
    {
      matchCase := Some(MatchExactly);
      self := this;
    }

    /** The `matchCase` setter; the getter reads the field back. */
    method SetMatchCase(value: TestValidatorAction)
      modifies this`matchCase
      ensures matchCase == Some(value)
    {
      matchCase := Some(value);
    }
  }

  /** Chained configuration: each call keeps what the earlier ones set. */
  method Configure(v: TestValidator, stage: string) returns (w: TestValidator)
    modifies v
    ensures w == v
    ensures v.matchCase == Some(MatchExactly)
    ensures v.handleValidation == Some(true) && v.validationAsStage == Some(stage)
  {
    var u := v.ExpectToMatchExact();
    w := u.SetHandleValidation(None, Some(stage));
  }
}

=== FILE: Wrappers.dfy ===
/** Option and Result: absent values and thrown errors of the modelled code. */
module Wrappers {

  /** A value that may be absent (JavaScript `null` / `undefined`). */
  datatype Option<+T> = None | Some(value: T)

  /** The outcome of an operation that may throw. */
  datatype Result<+T, +E> = Ok(value: T) | Err(error: E)
}
